=== FILE: README.md ===
# Hashcat-style password rule engine, modelled in Dafny

This project models the core of a small Python tool that mangles password
candidates with hashcat rules. A rule line such as `c $1` is a sequence of
actions. Each action is a one-character opcode followed by a fixed number of
argument characters. Position and count arguments are written in a 36-symbol
digit alphabet, `0`–`9` then `A`–`Z`.

The model covers the following:

- the digit alphabet `_i`;
- every entry of the `hashcat_rule` table, including `star_func` for `*`;
- the arity table `num_args_dict`;
- the tokenizer `parse_rule`;
- the left fold `apply_rule`;
- the batch `apply_rules`, which keeps the results of the rules that succeed;
- from the companion formatter, `format_action`, `format_rule` and the line loop of `parse_rules`.

Python's own behaviour is modelled explicitly wherever the code relies on it:

- Slices clamp.
- Negative indices wrap, and indexing outside `-len..len-1` raises.
- `chr` raises outside `0..0x10FFFF`.
- `split(" ")`, `join`, `replace` and `strip` follow Python.
- Text is a sequence of code points.

Every transform returns `Result<Str, EvalError>`. The error variants are:

- `IndexOutOfRange` for Python's `IndexError`;
- `NoSuchCodePoint` for the `ValueError` from `chr`;
- `BadArguments` for the `TypeError` raised when an action's argument list does not fit its lambda.

The parser returns `Result<Rule, ParseError>`. The error variants are:

- `UnknownOpcode`, for a `KeyError` from the arity table;
- `InvalidDigit`, for a `KeyError` from the digit alphabet;
- `MissingArgument`, for the `IndexError` when a position slot is absent.

Modules and files:

| file | module | contents |
|---|---|---|
| `results.dfy` | `Results` | `Option` and `Result` |
| `text.dfy` | `Text` | code-point strings and the Python string operations used |
| `opcodes.dfy` | `Opcodes` | the opcode enumeration, arity and slot tables, digit alphabet |
| `transforms.dfy` | `Transforms` | the transform of every opcode |
| `evaluator.dfy` | `Evaluator` | `apply_rule` and `apply_rules` |
| `parser.dfy` | `Parser` | `parse_rule` |
| `formatter.dfy` | `Formatter` | `format_action`, `format_rule` and `parse_rules` |
| `roundtrip.dfy` | `RoundTrip` | parsing formatted rules back |
| `transform_props.dfy` | `TransformFacts` | algebraic facts about individual transforms |
| `concrete.dfy` | `Examples` | worked examples |

Two places where the code is followed rather than a plain reading of the
rule language:

- A literal argument that the line lacks is not a parse error: `"$"` parses
  to `('$', [])`, and the action fails with `BadArguments` only when applied.
  Only a missing position or count slot fails at parse time.
- Negative positions are not rejected: they wrap as Python indices do.
  For example, `,0` copies the last character into position 0.

## Model

| member | source | states |
|---|---|---|
| Opcodes.LookupSymbol | hashcat_rule_gen.py:22-80 | every opcode's table key looks up that opcode, so the table has exactly one entry per variant |
| Opcodes.Lookup | hashcat_rule_gen.py:99-100 | a character that is found is the table key of the opcode it returns |
| Opcodes.CodeIsPrintable | hashcat_rule_gen.py:22-80 | every table key is a printable, non-space ASCII character, so a space can never be read as an opcode |
| Opcodes.Arity | hashcat_rule_gen.py:82 | the parameter count of each lambda minus the word: 0, 1 or 2 |
| Opcodes.IsNumSlot | hashcat_rule_gen.py:102-106 | a first argument is decoded through the alphabet exactly for the symbols `T p Z z Y y D ' x O o L R + - . , * i`, and a second exactly for `x O *` |
| Opcodes.NumSlotsWithinArity | hashcat_rule_gen.py:102-106 | every slot the parser decodes through the alphabet lies within the opcode's arity |
| Opcodes.Digit | hashcat_rule_gen.py:6-11 | the alphabet maps characters to 0..35 |
| Opcodes.DigitBijection | hashcat_rule_gen.py:6-11 | the alphabet is a bijection between its 36 symbols and 0..35 |
| Text.Slice | hashcat_rule_gen.py:55-56 | `x[lo:hi]` never raises; for every combination of signs each negative bound is counted from the end, a bound past either end is clamped, and the result is the slice between the two positions, or empty when they cross |
| Text.Take | hashcat_rule_gen.py:54 | `x[:hi]`: the prefix when in range, the whole word past the end, counted from the end for negative `hi`, and empty for `hi <= -len` |
| Text.Drop | hashcat_rule_gen.py:51 | `x[lo:]`: the suffix when in range, empty past the end, counted from the end for negative `lo`, and the whole word for `lo <= -len` |
| Text.At | hashcat_rule_gen.py:33 | `x[i]` is defined exactly for `-len(x) <= i < len(x)`, with negative indices counted from the end |
| Transforms.Get | hashcat_rule_gen.py:37-38 | indexing succeeds exactly inside `-len..len-1`, returning the character `x[i]` with a negative `i` counted from the end, and otherwise raises `IndexError` |
| Transforms.FromOrdinal | hashcat_rule_gen.py:67-70 | `chr(n)` succeeds exactly for `0 <= n <= 0x10FFFF`, returning that code point |
| Text.LowerAll | hashcat_rule_gen.py:27 | `lower()` keeps the length and maps every character through ASCII lower-casing |
| Text.UpperAll | hashcat_rule_gen.py:28 | `upper()` keeps the length and maps every character through ASCII upper-casing |
| Text.SwapAll | hashcat_rule_gen.py:31 | `swapcase()` turns upper into lower and lower into upper at every position |
| Text.Reversed | hashcat_rule_gen.py:36 | `x[::-1]` has position `i` holding `x[len-1-i]` |
| Text.DoubleEach | hashcat_rule_gen.py:43 | every character written twice in place |
| Text.Repeat | hashcat_rule_gen.py:44 | `x*y` is empty for `y <= 0`; otherwise it is `y * len(x)` long, starts with `x` and repeats with period `len(x)`, so it is `y` copies of `x` |
| Text.ReplaceAll | hashcat_rule_gen.py:66 | `replace(a, b)` with one-character arguments substitutes at exactly the positions holding `a` |
| Text.RemoveAll | hashcat_rule_gen.py:57 | `replace(a, '')` leaves no `a`, keeps every other character with its multiplicity, and on one character is that character or nothing |
| Text.RemoveAllConcat | hashcat_rule_gen.py:57 | removal works piecewise over a concatenation, so the kept characters stay in their original order |
| Text.Split | hashcat_rule_gen.py:32 | `split(" ")` yields at least one piece, none containing a space |
| Text.JoinLayout | hashcat_rule_gen.py:32 | `sep.join(pieces)` is empty for no pieces, starts with the first piece, and puts `sep` right after it when there are more |
| Text.JoinSplit | hashcat_rule_gen.py:32 | `" ".join(x.split(" ")) == x` |
| Text.StripIsTrimmedInfix | parseOrderedRules.py:25 | `strip()` returns the infix left after removing leading and trailing whitespace, and starts and ends with non-whitespace |
| Text.Strip | parseOrderedRules.py:25 | `strip()` is no longer than the line and, when non-empty, starts and ends with non-whitespace |
| Text.StripEmptyIff | parseOrderedRules.py:25-27 | a stripped line is empty exactly when the line is all whitespace |
| Transforms.CapitalizeEach | hashcat_rule_gen.py:32 | the comprehension succeeds exactly when no piece is empty, keeps the piece count, and otherwise raises `IndexError` |
| Transforms.TitleWords | hashcat_rule_gen.py:32 | opcode `E` fails only with `IndexError`; `TitleWordsMatchesReference` gives its exact success condition and result |
| Transforms.Transform | hashcat_rule_gen.py:24-80 | an ill-fitting argument list raises `TypeError`; opcodes that do not index never fail; failures are index errors, or `chr` errors only for `L + -` |
| Transforms.StarSwap | hashcat_rule_gen.py:78-79 | `star_func` raises `IndexError` exactly when either position is outside `-len..len-1`, and on distinct positions in `0..len-1` exchanges the two characters |
| Transforms.ExchangeSlices | hashcat_rule_gen.py:79 | for in-range `lo < hi`, the slices `x[:lo] + x[hi] + x[lo+1:hi] + x[lo] + x[hi+1:]` are the word with the two characters exchanged, in either update order |
| Transforms.SwapSlices | hashcat_rule_gen.py:79 | the five-slice expression of `star_func` for `y < z` is the exchange of the two characters |
| TransformFacts.NoopIsIdentity | hashcat_rule_gen.py:24 | `:` returns every word unchanged |
| TransformFacts.CaseMappingIdempotent | hashcat_rule_gen.py:27-28 | `l l` equals `l`, and `u u` equals `u` |
| TransformFacts.ReverseInvolution | hashcat_rule_gen.py:36 | `r r` returns every word unchanged |
| TransformFacts.RotateLeftValue | hashcat_rule_gen.py:37 | `{` moves the first character of a non-empty word to the end |
| TransformFacts.RotateRightValue | hashcat_rule_gen.py:38 | `}` moves the last character of a non-empty word to the front |
| TransformFacts.RotateLeftThenRight | hashcat_rule_gen.py:37-38 | `{ }` restores every non-empty word |
| TransformFacts.RotateRightThenLeft | hashcat_rule_gen.py:37-38 | `} {` restores every non-empty word |
| TransformFacts.RotationsFailOnEmpty | hashcat_rule_gen.py:37-38 | both rotations raise `IndexError` on the empty word |
| TransformFacts.DeleteAtEffect | hashcat_rule_gen.py:53 | `D N` removes exactly position N inside the word, shortening it by one, and leaves the word alone past its end |
| TransformFacts.ExtractEffect | hashcat_rule_gen.py:56 | `x N M` has at most M characters, exactly `w[N..N+M]` when that lies inside the word, and the clamped tail otherwise |
| TransformFacts.SwapDistinct | hashcat_rule_gen.py:78-80 | `* i j` with distinct in-range positions exchanges the two characters, equals `* j i`, and keeps the length |
| TransformFacts.SwapSamePosition | hashcat_rule_gen.py:79 | `* i i` on an in-range position writes the character twice, so the word grows by one |
| TransformFacts.SwapCharsExchanges | hashcat_rule_gen.py:78-80 | the corrected swap exchanges any two in-range positions, equal or not; it is symmetric, keeps the length and undoes itself |
| TransformFacts.SwapCharsAgreesOffDiagonal | hashcat_rule_gen.py:78-80 | the corrected swap equals `*` whenever the positions differ; on equal in-range positions it leaves the word unchanged, where `*` does not |
| TransformFacts.CopyPriorAtZeroWraps | hashcat_rule_gen.py:72 | `,0` reads `x[-1]`, so position 0 receives the last character |
| TransformFacts.DuplicateBlockBackZero | hashcat_rule_gen.py:48 | `Y0` takes `x[-0:]`, the whole word, so it doubles the word |
| TransformFacts.CodePointLimits | hashcat_rule_gen.py:67-70 | `-` raises at code point 0, `+` raises at 0x10FFFF, `R` never raises, and `L` succeeds exactly up to 0x87FFF |
| TransformFacts.TitleOneWord | hashcat_rule_gen.py:32 | `E` on a word without spaces succeeds exactly when the word is non-empty, and then upper-cases its first character |
| TransformFacts.TitleWordsSingle | hashcat_rule_gen.py:32 | a non-empty word that splits into itself comes back with only its first character upper-cased |
| TransformFacts.TitleWordsStep | hashcat_rule_gen.py:32 | when the rest after the first space succeeds, `E` capitalises the first word, keeps the space and appends the rest's result |
| TransformFacts.TitleWordsCons | hashcat_rule_gen.py:32 | if `E` agrees with the reference on the rest after the first space, it agrees on the whole word |
| TransformFacts.TitleWordsMatchesReference | hashcat_rule_gen.py:32 | `E` succeeds exactly when the word has no leading, trailing or doubled space, and then upper-cases exactly the characters that start words |
| Evaluator.ApplyRule | hashcat_rule_gen.py:116-123 | the empty rule returns the word; an error in the first action aborts the whole rule with that error |
| Evaluator.ApplyRuleConcat | hashcat_rule_gen.py:120-121 | applying `r1 + r2` is applying `r1` and then `r2` to its result, with `r1`'s error winning |
| Evaluator.ApplySingle | hashcat_rule_gen.py:120-121 | a one-action rule is that action's transform |
| Evaluator.ApplyPair | hashcat_rule_gen.py:120-121 | a two-action rule feeds the first transform's result to the second |
| Evaluator.Outputs | hashcat_rule_gen.py:147-156 | a word is in the result set exactly when some rule applied to the original word succeeds with it |
| Evaluator.ApplyRules | hashcat_rule_gen.py:147-156 | the loop's set is exactly the results of the rules that succeed |
| Evaluator.FailingRuleDropped | hashcat_rule_gen.py:151-155 | adding a rule that raises leaves the result set unchanged |
| Parser.Literals | hashcat_rule_gen.py:101 | `[*raw]` yields one literal argument per character |
| Parser.DecodeSlot | hashcat_rule_gen.py:104 | decoding a slot succeeds exactly when the slot exists and holds an alphabet symbol, and replaces it by its value |
| Parser.DecodeArgs | hashcat_rule_gen.py:101-106 | a decoded list keeps one argument per raw character with literal slots untouched; a failure is a missing slot or an offending character taken from the raw text |
| Parser.DecodeArgsSpec | hashcat_rule_gen.py:101-106 | an argument list decodes exactly when every position and count slot is present and an alphabet symbol, giving numbers there and characters elsewhere |
| Parser.Parse | hashcat_rule_gen.py:91-114 | the empty line gives the empty rule; an unknown first character raises; every action has at most its arity of arguments, with numbers 0..35 exactly in its decoded slots |
| Parser.ParseStep | hashcat_rule_gen.py:98-109 | an opcode, its exact argument text and any separator character become one action, and parsing resumes after the separator |
| Parser.ParseFinal | hashcat_rule_gen.py:101 | the last action needs no separator, and a literal argument cut off by the end of the line is simply absent |
| Parser.ParseInvalidDigit | hashcat_rule_gen.py:104 | a position written with a non-alphabet character raises |
| Parser.ParseMissingPosition | hashcat_rule_gen.py:101-104 | an opcode whose position slot is cut off by the end of the line raises |
| Formatter.Decimal | parseOrderedRules.py:10 | `str(n)` is a canonical decimal numeral (no leading zero, zero only as `0`) that starts with `-` exactly for negative `n` and reads back as `n` |
| Formatter.CanonicalIsDecimal | parseOrderedRules.py:10 | every canonical numeral is `str` of the number it denotes, so `str(n)` is the only canonical text for `n` |
| Formatter.DigitsOfValue | parseOrderedRules.py:10 | a digit string without a leading zero is `str` of its value |
| Formatter.PyStr | parseOrderedRules.py:10 | `str(item)` is never empty; a character is written as itself, and a number as its canonical numeral, which reads back as the number |
| Formatter.PayloadSingle | parseOrderedRules.py:10 | `''.join(map(str, [a]))` is `str(a)` |
| Formatter.PayloadConcat | parseOrderedRules.py:10 | `''.join(map(str, ...))` of a concatenation is the concatenation of the two joins |
| Formatter.Digits | parseOrderedRules.py:10 | `str(n)` is a non-empty string of decimal digits with no leading zero unless `n` is 0; a single digit below 10 |
| Formatter.DigitsSpell | parseOrderedRules.py:10 | the digits of `str(n)`, read as a decimal numeral, denote `n` |
| Formatter.ActionText | parseOrderedRules.py:10 | an action's text starts with its opcode character |
| Formatter.FormatAction | parseOrderedRules.py:5-10 | `format_action` starts with the action type and is at least one character longer than the payload has items |
| Formatter.FormatActionItems | parseOrderedRules.py:5-10 | `format_action` of an empty payload is the type alone, and appending an item to the payload appends its `str`, for any item |
| Formatter.PyStrNonEmpty | parseOrderedRules.py:10 | every payload item contributes at least one character |
| Formatter.FormatRule | parseOrderedRules.py:12-16 | `format_rule` is empty exactly for the empty rule and otherwise begins with the first action's text |
| Formatter.PyStrSingly | parseOrderedRules.py:10 | `str` writes every character as itself and 0..9 as the first ten alphabet symbols |
| Formatter.PayloadLayout | parseOrderedRules.py:10 | a payload of single-symbol items renders one character per item, in order |
| Formatter.FormatActionLayout | parseOrderedRules.py:5-10 | `format_action` writes the opcode and then each payload item with no separator, one character per item for numbers 0..9 |
| Formatter.FormatRuleJoin | parseOrderedRules.py:12-16 | the texts of joined non-empty rules are separated by exactly one space, and the empty rule formats to `""` |
| Formatter.ParseRules | parseOrderedRules.py:18-30 | never more outputs than input lines |
| Formatter.ParseRulesProvenance | parseOrderedRules.py:24-29 | every output is the formatted rule of some non-blank, stripped input line |
| Formatter.ParseRulesAppend | parseOrderedRules.py:24-29 | lines are processed in order: outputs of concatenated inputs concatenate |
| Formatter.ParseRulesOneLine | parseOrderedRules.py:25-29 | a whitespace-only line produces nothing; any other line produces the formatted rule of its stripped text |
| RoundTrip.PayloadDecodes | hashcat_rule_gen.py:101-106 | the rendered payload of a fitting action decodes to its own arguments |
| RoundTrip.RenderRoundTrip | hashcat_rule_gen.py:98-109 | parsing a rule rendered one character per argument, with spaces between actions, returns the rule |
| RoundTrip.FormatThenParse | parseOrderedRules.py:12-16 | `parse_rule(format_rule(r)) == r` for full argument lists with numbers 0..9 |
| RoundTrip.DecimalBreaksRoundTrip | parseOrderedRules.py:10 | a one-argument position 10..99 formats to the symbol followed by its two decimal digits, and parses back as `n / 10` |
| RoundTrip.AlphabetRoundTrip | hashcat_rule_gen.py:6-11 | with numbers written in the digit alphabet, the round trip holds for every value 0..35 |
| RoundTrip.AlphabetAgreesOnDigits | parseOrderedRules.py:12-16 | the alphabet formatter and `format_rule` write the same text when every number is 0..9 |
| RoundTrip.RuleTextAgrees | parseOrderedRules.py:16 | rules whose actions render alike render alike as a whole |
| Examples.LowerExample | hashcat_rule_gen.py:27 | `l` on `Password1` gives `password1` |
| Examples.AppendPrependExample | hashcat_rule_gen.py:60-61 | `$s` on `cat` gives `cats`, and `^s` gives `scat` |
| Examples.DeleteExample | hashcat_rule_gen.py:53 | `D1` on `hello` gives `hllo` |
| Examples.ExtractExample | hashcat_rule_gen.py:56 | `x13` on `abcdef` gives `bcd` |
| Examples.MixedSliceExample | hashcat_rule_gen.py:55-56 | `"abcd"[1:-1]` is `"bc"` and `"abcd"[-2:4]` is `"cd"` |
| Examples.BatchExample | hashcat_rule_gen.py:147-156 | rules `c $1` and `u` on `pass` give exactly `{Pass1, PASS}` |
| Examples.ParseExample | hashcat_rule_gen.py:98-110 | `D1` parses to `[('D', [1])]` |
| Examples.ParseUnknownExample | hashcat_rule_gen.py:100 | `!` raises as an unknown opcode |
| Examples.MissingLiteralExample | hashcat_rule_gen.py:101 | `$` parses to `('$', [])`, and applying it raises the argument error |
| Examples.FormatExample | parseOrderedRules.py:5-16 | `('D', [1])` formats to `D1`, and `[c, $1]` formats to `c $1` |
| Examples.DecimalTenExample | parseOrderedRules.py:10 | `[('D', [10])]` formats to `D10`, which parses as `[('D', [1])]` |

## Left out

- Rule files: `load_rules`, `load_rockyou`, `load_rockyou1000` and `load_best64` read files and are I/O. The core receives lines.
- `export_rules` and the script's entry point in the formatter module are file output.
- `parse_rule`'s `print` before re-raising is logging only. The model returns the error.
- `get_num_args` inspects each lambda at run time. It is replaced by the static `Arity` table that it computes.
- `lru_cache` and the type aliases have no behaviour to model.
- `ast.literal_eval` in `parse_rules` is a parameter `literal: Str -> Rule`. It is total, so malformed literal lines are not modelled as raising.
- Case mapping covers ASCII letters only. Python's `lower`, `upper`, `capitalize` and `swapcase` also map non-ASCII letters.
- Python strings of length other than one are not modelled as arguments:
  - A literal argument is one code point, which is all `parse_rule` can produce.
  - Hand-built actions with longer strings, such as `('s', [1, 'ab'])`, are outside the model.
  - `@` and `s` use character-wise removal and replacement.
- Transforms.Transform: an argument of the wrong kind, or a wrong number of arguments, gives `BadArguments` before anything else is evaluated. Python raises a `TypeError` in these cases too, but only when the offending operation is reached. An `IndexError` met earlier wins: `('z', ['a'])` on `""` raises `IndexError` at `x[0]`. Such hand-built actions never come out of `parse_rule`.
- Formatter.ParseRules, Evaluator.ApplyRule: an action's type is always an opcode of the table. `format_action` also accepts any string as the type, for example `('zz', [1])` gives `"zz1"`. `apply_rule` raises `KeyError` on a type missing from the table. Neither case is modelled, because `Action.op` ranges over the opcodes.
- Formatter.ParseRules: its own contract only bounds the output length. Order and provenance are stated by the separate lemmas `ParseRulesProvenance`, `ParseRulesAppend` and `ParseRulesOneLine`.
- Transforms.StarSwap: for negative positions, which only hand-built actions can carry, the model follows the five-slice expression as written without characterising its result. Such positions do not exchange: `star_func("abc", -1, 0)` gives `"abacbc"`.
- Opcodes.Lookup: its contract is one direction only. The other direction, that every opcode is found, is `LookupSymbol`.

## Findings

| source | as written | input that shows it | evidently intended | confidence | as-written member | corrected member |
|---|---|---|---|---|---|---|
| parseOrderedRules.py:10 | `format_action` writes numbers with `str`, so 10..35 take two decimal digits | `('D', [10])` formats to `"D10"`, which `parse_rule` reads as `('D', [1])` | numbers written as the single digit-alphabet symbol `parse_rule` decodes (`"DA"`) | high, not executed | RoundTrip.DecimalBreaksRoundTrip | RoundTrip.AlphabetRoundTrip |
| hashcat_rule_gen.py:79 | `star_func` with equal positions takes the `else` branch and writes `x[y]` twice | `*22` on `"abcd"` gives `"abccd"` | swapping a position with itself leaves the word unchanged | medium, not executed | TransformFacts.SwapSamePosition | TransformFacts.SwapCharsExchanges |

The corrected formatter is `Formatter.FormatRuleAlphabet`. It agrees with
`format_rule` on 0..9 (`AlphabetAgreesOnDigits`). The corrected swap is
`Transforms.SwapChars`. It agrees with `star_func` whenever the positions
differ (`SwapCharsAgreesOffDiagonal`). The rest of the model keeps the code as
written: `ParseRules` formats with `FormatRule`, and `Transform` runs
`StarSwap` for `*`.

=== FILE: concrete.dfy ===
/** Worked examples of the rule engine on particular words and rule lines. */
module Examples {
  import opened Results
  import opened Text
  import opened Opcodes
  import opened Transforms
  import opened Evaluator
  import opened Parser
  import opened Formatter
  import opened RoundTrip

  /** `l` on "Password1" gives "password1". */
  lemma LowerExample()
    ensures ApplyRule(Lit("Password1"), [Action(Lower, [])]) == Ok(Lit("password1"))
  {
    assert LowerAll(Lit("Password1")) == Lit("password1");
  }

  /** `$s` appends and `^s` prepends: "cat" gives "cats" and "scat". */
  lemma AppendPrependExample()
    ensures ApplyRule(Lit("cat"), [Action(Append, [Chr('s' as int)])]) == Ok(Lit("cats"))
    ensures ApplyRule(Lit("cat"), [Action(Prepend, [Chr('s' as int)])]) == Ok(Lit("scat"))
  {
    assert WellTyped(Append, [Chr('s' as int)]) && WellTyped(Prepend, [Chr('s' as int)]);
    assert Lit("cat") + ['s' as int] == Lit("cats");
    assert ['s' as int] + Lit("cat") == Lit("scat");
  }

  /** `D1` deletes the character at index 1: "hello" gives "hllo". */
  lemma DeleteExample()
    ensures ApplyRule(Lit("hello"), [Action(DeleteAt, [Num(1)])]) == Ok(Lit("hllo"))
  {
    assert WellTyped(DeleteAt, [Num(1)]);
    assert Take(Lit("hello"), 1) + Drop(Lit("hello"), 2) == Lit("hllo");
  }

  /** `x13` extracts three characters from index 1: "abcdef" gives "bcd". */
  lemma ExtractExample()
    ensures ApplyRule(Lit("abcdef"), [Action(Extract, [Num(1), Num(3)])]) == Ok(Lit("bcd"))
  {
    assert WellTyped(Extract, [Num(1), Num(3)]);
    assert Slice(Lit("abcdef"), 1, 4) == Lit("bcd");
  }

  /** Slices with bounds of mixed sign: `"abcd"[1:-1]` is `"bc"` and
      `"abcd"[-2:4]` is `"cd"`. */
  lemma MixedSliceExample()
    ensures Slice(Lit("abcd"), 1, -1) == Lit("bc")
    ensures Slice(Lit("abcd"), -2, 4) == Lit("cd")
  {
  }

  /** `apply_rules("pass", [c $1, u])` is `{"Pass1", "PASS"}`. */
  lemma BatchExample()
    ensures Outputs(Lit("pass"), [[Action(Capitalize, []), Action(Append, [Chr('1' as int)])], [Action(Upper, [])]])
            == {Lit("Pass1"), Lit("PASS")}
  {
    var w := Lit("pass");
    var first := [Action(Capitalize, []), Action(Append, [Chr('1' as int)])];
    assert [ToUpper(w[0])] + LowerAll(w[1..]) == Lit("Pass");
    assert Transform(Capitalize, [], w) == Ok(Lit("Pass"));
    assert WellTyped(Append, [Chr('1' as int)]);
    assert Lit("Pass") + ['1' as int] == Lit("Pass1");
    ApplyPair(w, first[0], first[1]);
    assert first == [first[0], first[1]];
    assert ApplyRule(w, first) == Ok(Lit("Pass1"));
    assert UpperAll(w) == Lit("PASS");
    assert ApplyRule(w, [Action(Upper, [])]) == Ok(Lit("PASS"));
    var rules := [first, [Action(Upper, [])]];
    assert ApplyRule(w, rules[0]) == Ok(Lit("Pass1"));
    assert ApplyRule(w, rules[1]) == Ok(Lit("PASS"));
    var out := Outputs(w, rules);
    assert Lit("Pass1") in out && Lit("PASS") in out;
    forall s | s in out ensures s == Lit("Pass1") || s == Lit("PASS") {
      var k :| 0 <= k < 2 && ApplyRule(w, rules[k]) == Ok(s);
    }
  }

  /** `"D1"` parses to the one action `('D', [1])`. */
  lemma ParseExample()
    ensures Parse(Lit("D1")) == Ok([Action(DeleteAt, [Num(1)])])
  {
    assert Lit("D1") == [Symbol(DeleteAt)] + ['1' as int];
    DigitBijection('1' as int, 1);
    DecodeArgsSpec(DeleteAt, ['1' as int]);
    assert DecodeArgs(DeleteAt, ['1' as int]).value == [Num(1)];
    ParseFinal(DeleteAt, ['1' as int]);
  }

  /** `"!"` is not an opcode. */
  lemma ParseUnknownExample()
    ensures Parse(Lit("!")) == Err(UnknownOpcode('!' as int))
  {
  }

  /** `"$"` parses, with no argument, and fails only when applied. */
  lemma MissingLiteralExample()
    ensures Parse(Lit("$")) == Ok([Action(Append, [])])
    ensures ApplyRule(Lit("cat"), [Action(Append, [])]) == Err(BadArguments)
  {
    assert Lit("$") == [Symbol(Append)] + [];
    DecodeArgsSpec(Append, []);
    ParseFinal(Append, []);
  }

  /** `format_action(('D', [1]))` is `"D1"`, and `format_rule` joins with a
      space: `[c, $1]` gives `"c $1"`. */
  lemma FormatExample()
    ensures FormatAction(Action(DeleteAt, [Num(1)])) == Lit("D1")
    ensures FormatRule([Action(Capitalize, []), Action(Append, [Chr('1' as int)])]) == Lit("c $1")
  {
    var c := Action(Capitalize, []);
    var a := Action(Append, [Chr('1' as int)]);
    assert Payload([Num(1)], PyStr) == ['1' as int];
    assert Payload([Chr('1' as int)], PyStr) == ['1' as int];
    assert [c, a][1..] == [a];
    assert RuleText([c, a][1..], PyStr) == ActionText(a, PyStr);
    assert FormatRule([c, a]) == ActionText(c, PyStr) + [Space] + ActionText(a, PyStr);
    assert ActionText(c, PyStr) == [Symbol(Capitalize)];
    assert ActionText(a, PyStr) == [Symbol(Append), '1' as int];
  }

  /** `format_rule([('D', [10])])` is `"D10"`, which parses back as
      `[('D', [1])]`. */
  lemma DecimalTenExample()
    ensures FormatRule([Action(DeleteAt, [Num(10)])]) == Lit("D10")
    ensures Parse(Lit("D10")) == Ok([Action(DeleteAt, [Num(1)])])
  {
    DecimalBreaksRoundTrip(DeleteAt, 10);
    assert Lit("D10") == [Symbol(DeleteAt), '1' as int, '0' as int];
  }
}

=== FILE: evaluator.dfy ===
/** Applying parsed rules: a single rule is a left fold of its actions over the
    word; a batch applies every rule to the same word and keeps the distinct
    results of the rules that succeed. */
module Evaluator {
  import opened Results
  import opened Text
  import opened Opcodes
  import opened Transforms

  /** `apply_rule`: each action transforms the running word; the first action
      that raises aborts the whole application. */
  function ApplyRule(w: Str, rule: Rule): (r: Result<Str, EvalError>)
    ensures rule == [] ==> r == Ok(w)
    ensures |rule| > 0 && Transform(rule[0].op, rule[0].args, w).Err? ==>
              r == Err(Transform(rule[0].op, rule[0].args, w).error)
    decreases |rule|
  {
    if |rule| == 0 then Ok(w)
    else
      var next :- Transform(rule[0].op, rule[0].args, w);
      ApplyRule(next, rule[1..])
  }

  /** Applying a concatenation of rules is applying the first and then the
      second to its result: the fold runs strictly left to right. */
  lemma {:induction false} ApplyRuleConcat(w: Str, r1: Rule, r2: Rule)
    ensures ApplyRule(w, r1 + r2) ==
              match ApplyRule(w, r1)
              case Ok(v) => ApplyRule(v, r2)
              case Err(e) => Err(e)
    decreases |r1|
  {
    if |r1| > 0 {
      assert (r1 + r2)[1..] == r1[1..] + r2;
      match Transform(r1[0].op, r1[0].args, w)
      case Ok(next) => ApplyRuleConcat(next, r1[1..], r2);
      case Err(_) =>
    } else {
      assert r1 + r2 == r2;
    }
  }

  /** A one-action rule is that action's transform. */
  lemma ApplySingle(w: Str, a: Action)
    ensures ApplyRule(w, [a]) == Transform(a.op, a.args, w)
  {
  }

  /** A two-action rule runs the second transform on the first one's result. */
  lemma ApplyPair(w: Str, a: Action, b: Action)
    ensures ApplyRule(w, [a, b]) ==
              match Transform(a.op, a.args, w)
              case Ok(v) => Transform(b.op, b.args, v)
              case Err(e) => Err(e)
  {
    assert [a, b][1..] == [b];
  }

  /** The set `apply_rules` returns: the result of every rule that succeeds on
      the original word, each rule applied independently. */
  function Outputs(w: Str, rules: seq<Rule>): (out: set<Str>)
    ensures forall s :: s in out <==> exists k :: 0 <= k < |rules| && ApplyRule(w, rules[k]) == Ok(s)
  {
    set k | 0 <= k < |rules| && ApplyRule(w, rules[k]).Ok? :: ApplyRule(w, rules[k]).value
  }

  /** `apply_rules`: the loop that applies each rule to the original word and
      adds its result to a set, swallowing the errors of failing rules. */
  method ApplyRules(w: Str, rules: seq<Rule>) returns (out: set<Str>)
    ensures out == Outputs(w, rules)
  {
    out := {};
    for i := 0 to |rules|
      invariant forall s :: s in out <==> exists k :: 0 <= k < i && ApplyRule(w, rules[k]) == Ok(s)
    {
      var r := ApplyRule(w, rules[i]);
      if r.Ok? {
        out := out + {r.value};
      }
    }
  }

  /** A failing rule contributes nothing and does not stop the others: adding it
      to a batch leaves the result set unchanged. */
  lemma FailingRuleDropped(w: Str, rules: seq<Rule>, bad: Rule)
    requires ApplyRule(w, bad).Err?
    ensures Outputs(w, rules + [bad]) == Outputs(w, rules)
  {
    var before := Outputs(w, rules);
    var after := Outputs(w, rules + [bad]);
    forall s | s in after ensures s in before {
      var k :| 0 <= k < |rules| + 1 && ApplyRule(w, (rules + [bad])[k]) == Ok(s);
      assert k < |rules|;
      assert (rules + [bad])[k] == rules[k];
    }
    forall s | s in before ensures s in after {
      var k :| 0 <= k < |rules| && ApplyRule(w, rules[k]) == Ok(s);
      assert (rules + [bad])[k] == rules[k];
    }
  }
}

=== FILE: formatter.dfy ===
/** Rendering action lists back to rule text (`format_action`, `format_rule`)
    and the line loop of `parse_rules`. */
module Formatter {
  import opened Text
  import opened Opcodes
  import opened Transforms

  /** The decimal digits of a natural number, most significant first. */
  function Digits(n: nat): (s: Str)
    ensures |s| >= 1
    ensures forall i :: 0 <= i < |s| ==> IsDecimalDigit(s[i])
    ensures s[0] == '0' as int ==> n == 0
    ensures n < 10 ==> s == ['0' as int + n]
    ensures n >= 10 ==> |s| >= 2
    decreases n
  {
    if n < 10 then ['0' as int + n] else Digits(n / 10) + ['0' as int + n % 10]
  }

  predicate IsDecimalDigit(c: CodePoint)
  {
    '0' as int <= c <= '9' as int
  }

  /** The number a string of decimal digits denotes, read most significant
      digit first. */
  function DecimalValue(s: Str): int
    requires forall i :: 0 <= i < |s| ==> IsDecimalDigit(s[i])
  {
    if |s| == 0 then 0 else 10 * DecimalValue(s[..|s| - 1]) + (s[|s| - 1] as int - '0' as int)
  }

  /** `str(n)` spells `n`: its digits denote `n`, and it has no leading zero
      unless `n` is zero. */
  lemma {:induction false} DigitsSpell(n: nat)
    ensures DecimalValue(Digits(n)) == n
    decreases n
  {
    if n >= 10 {
      DigitsSpell(n / 10);
      var s := Digits(n);
      assert s[..|s| - 1] == Digits(n / 10);
    }
  }

  /** A decimal numeral with an optional leading minus sign. */
  predicate IsNumeral(s: Str)
  {
    if |s| > 0 && s[0] == '-' as int then |s| > 1 && forall i :: 1 <= i < |s| ==> IsDecimalDigit(s[i])
    else |s| > 0 && forall i :: 0 <= i < |s| ==> IsDecimalDigit(s[i])
  }

  /** `int(s)` for a decimal numeral. */
  function NumeralValue(s: Str): int
    requires IsNumeral(s)
  {
    if s[0] == '-' as int then -DecimalValue(s[1..]) else DecimalValue(s)
  }

  /** The digits of a numeral, after its sign if it has one. */
  function Magnitude(s: Str): (d: Str)
    requires IsNumeral(s)
    ensures |d| > 0 && forall i :: 0 <= i < |d| ==> IsDecimalDigit(d[i])
  {
    if s[0] == '-' as int then s[1..] else s
  }

  /** The numeral `str` writes: no leading zero, and zero only as `"0"`. */
  predicate IsCanonical(s: Str)
  {
    IsNumeral(s) && (Magnitude(s)[0] == '0' as int ==> s == ['0' as int])
  }

  /** `str(n)` for an integer: a minus sign exactly for negative numbers, then
      the digits of the magnitude with no leading zero, so that
      `int(str(n)) == n`. */
  function Decimal(n: int): (s: Str)
    ensures IsCanonical(s)
    ensures n < 0 <==> s[0] == '-' as int
    ensures NumeralValue(s) == n
  {
    DigitsSpell(if n < 0 then -n else n);
    if n < 0 then
      var d := Digits(-n);
      assert (['-' as int] + d)[1..] == d;
      ['-' as int] + d
    else Digits(n)
  }

  /** A digit string with no leading zero denotes a positive number. */
  lemma {:induction false} LeadingDigitPositive(d: Str)
    requires |d| > 0 && forall i :: 0 <= i < |d| ==> IsDecimalDigit(d[i])
    requires d[0] != '0' as int
    ensures DecimalValue(d) >= 1
    decreases |d|
  {
    if |d| > 1 {
      LeadingDigitPositive(d[..|d| - 1]);
    }
  }

  /** A digit string with no leading zero is the `str` of its value. */
  lemma {:induction false} DigitsOfValue(d: Str)
    requires |d| > 0 && forall i :: 0 <= i < |d| ==> IsDecimalDigit(d[i])
    requires d[0] != '0' as int
    ensures DecimalValue(d) >= 1 && Digits(DecimalValue(d)) == d
    decreases |d|
  {
    LeadingDigitPositive(d);
    if |d| > 1 {
      var init := d[..|d| - 1];
      DigitsOfValue(init);
      var v := DecimalValue(d);
      assert v == 10 * DecimalValue(init) + (d[|d| - 1] as int - '0' as int);
      assert v / 10 == DecimalValue(init) && v % 10 == d[|d| - 1] as int - '0' as int;
      assert d == init + [d[|d| - 1]];
    }
  }

  /** Every canonical numeral is `str` of its value, so `str` has exactly one
      possible text for each number. */
  lemma CanonicalIsDecimal(s: Str)
    requires IsCanonical(s)
    ensures Decimal(NumeralValue(s)) == s
  {
    var d := Magnitude(s);
    if d[0] == '0' as int {
      assert s == ['0' as int];
      assert DecimalValue(s) == DecimalValue([]) * 10 + 0;
    } else {
      DigitsOfValue(d);
      if s[0] == '-' as int {
        assert s == ['-' as int] + d;
      }
    }
  }

  /** `str(item)` for one payload item: a character is itself, a number is its
      decimal numeral, which reads back as the number. */
  function PyStr(a: Arg): (s: Str)
    ensures |s| >= 1
    ensures a.Chr? ==> s == [a.c]
    ensures a.Num? ==> IsCanonical(s) && NumeralValue(s) == a.n
  {
    match a
    case Chr(c) => [c]
    case Num(n) => Decimal(n)
  }

  /** The payload items rendered by `render`, concatenated with no separator. */
  function Payload(args: seq<Arg>, render: Arg -> Str): Str
  {
    if |args| == 0 then [] else render(args[0]) + Payload(args[1..], render)
  }

  /** A payload of one item is that item's rendering. */
  lemma PayloadSingle(a: Arg, render: Arg -> Str)
    ensures Payload([a], render) == render(a)
  {
  }

  /** Rendering a payload works item by item: the rendering of `a1 + a2` is
      that of `a1` followed by that of `a2`. */
  lemma {:induction false} PayloadConcat(a1: seq<Arg>, a2: seq<Arg>, render: Arg -> Str)
    ensures Payload(a1 + a2, render) == Payload(a1, render) + Payload(a2, render)
    decreases |a1|
  {
    if |a1| > 0 {
      assert (a1 + a2)[0] == a1[0];
      assert (a1 + a2)[1..] == a1[1..] + a2;
      PayloadConcat(a1[1..], a2, render);
    } else {
      assert a1 + a2 == a2;
    }
  }

  /** An action rendered as its opcode symbol followed by its payload. */
  function ActionText(a: Action, render: Arg -> Str): (s: Str)
    ensures |s| >= 1 && s[0] == Symbol(a.op)
  {
    [Symbol(a.op)] + Payload(a.args, render)
  }

  /** A rule rendered as its actions joined by single spaces. */
  function RuleText(r: Rule, render: Arg -> Str): (s: Str)
    ensures s == [] <==> r == []
    ensures |r| > 0 ==> |s| >= |ActionText(r[0], render)| && s[..|ActionText(r[0], render)|] == ActionText(r[0], render)
  {
    if |r| == 0 then []
    else if |r| == 1 then ActionText(r[0], render)
    else ActionText(r[0], render) + [Space] + RuleText(r[1..], render)
  }

  /** `format_action`: `f"{t}{''.join(map(str, payload))}"`. */
  function FormatAction(a: Action): (s: Str)
    ensures |s| >= 1 + |a.args|
    ensures s[0] == Symbol(a.op)
  {
    PyStrNonEmpty(a.args);
    ActionText(a, PyStr)
  }

  /** `format_action` writes the type and then `str` of each item, one after
      another with no separator: the empty payload is the type alone, and
      adding an item appends its `str`. */
  lemma FormatActionItems(op: Opcode, args: seq<Arg>, b: Arg)
    ensures FormatAction(Action(op, [])) == [Symbol(op)]
    ensures FormatAction(Action(op, args + [b])) == FormatAction(Action(op, args)) + PyStr(b)
  {
    PayloadConcat(args, [b], PyStr);
    PayloadSingle(b, PyStr);
  }

  /** `str` never writes an empty string, so each payload item adds at
      least one character. */
  lemma {:induction false} PyStrNonEmpty(args: seq<Arg>)
    ensures |Payload(args, PyStr)| >= |args|
    decreases |args|
  {
    if |args| > 0 {
      PyStrNonEmpty(args[1..]);
    }
  }

  /** `format_rule`: `' '.join(format_action(a) for a in actions)`. */
  function FormatRule(r: Rule): (s: Str)
    ensures s == [] <==> r == []
    ensures |r| > 0 ==> |s| >= |FormatAction(r[0])| && s[..|FormatAction(r[0])|] == FormatAction(r[0])
  {
    RuleText(r, PyStr)
  }

  // ----- the digit-alphabet formatter ---------------------------------------------

  /** A payload item written the way the parser reads it: a number 0..35 as
      its digit-alphabet symbol, anything else as `str` writes it. */
  function AlphabetStr(a: Arg): Str
  {
    match a
    case Num(n) => if 0 <= n < 36 then [DigitSymbol(n)] else Decimal(n)
    case Chr(c) => [c]
  }

  /** `format_rule` with numbers written in the digit alphabet. */
  function FormatRuleAlphabet(r: Rule): Str
  {
    RuleText(r, AlphabetStr)
  }

  /** Every number in the payload is below `bound`. */
  predicate InBound(args: seq<Arg>, bound: nat)
  {
    forall k :: 0 <= k < |args| ==> args[k].Num? ==> 0 <= args[k].n < bound
  }

  /** The one character an argument is written as: a literal is itself, a
      number 0..35 is its digit-alphabet symbol. */
  function ArgSymbol(a: Arg): CodePoint
    requires a.Num? ==> 0 <= a.n < 36
  {
    match a
    case Chr(c) => c
    case Num(n) => DigitSymbol(n)
  }

  /** `render` writes every literal, and every number below `bound`, as its
      one-character symbol. */
  predicate Singly(render: Arg -> Str, bound: nat)
  {
    && bound <= 36
    && (forall c: CodePoint :: render(Chr(c)) == [c])
    && (forall n: int :: 0 <= n < bound ==> render(Num(n)) == [DigitSymbol(n)])
  }

  /** `str` writes 0..9 as single decimal digits, which are exactly the first
      ten symbols of the digit alphabet. */
  lemma PyStrSingly()
    ensures Singly(PyStr, 10)
  {
  }

  /** A payload of single-character items renders one character per item. */
  lemma {:induction false} PayloadLayout(args: seq<Arg>, render: Arg -> Str, bound: nat)
    requires Singly(render, bound) && InBound(args, bound)
    ensures |Payload(args, render)| == |args|
    ensures forall k :: 0 <= k < |args| ==> Payload(args, render)[k] == ArgSymbol(args[k])
    decreases |args|
  {
    if |args| > 0 {
      PayloadLayout(args[1..], render, bound);
      var p := Payload(args, render);
      assert p == [ArgSymbol(args[0])] + Payload(args[1..], render);
      forall k | 0 <= k < |args|
        ensures p[k] == ArgSymbol(args[k])
      {
        if k > 0 {
          assert args[1..][k - 1] == args[k];
        }
      }
    }
  }

  /** `format_action` writes the opcode symbol and then each payload item, with
      nothing between them: `('D', [1])` gives `"D1"`. */
  lemma FormatActionLayout(a: Action)
    requires InBound(a.args, 10)
    ensures |FormatAction(a)| == 1 + |a.args|
    ensures FormatAction(a)[0] == Symbol(a.op)
    ensures forall k :: 0 <= k < |a.args| ==> FormatAction(a)[k + 1] == ArgSymbol(a.args[k])
  {
    PyStrSingly();
    PayloadLayout(a.args, PyStr, 10);
  }

  /** `format_rule` puts exactly one space between the texts of two rules
      joined together, and the empty rule formats to the empty string. */
  lemma {:induction false} FormatRuleJoin(r1: Rule, r2: Rule)
    requires |r1| > 0 && |r2| > 0
    ensures FormatRule(r1 + r2) == FormatRule(r1) + [Space] + FormatRule(r2)
    ensures FormatRule([]) == []
    decreases |r1|
  {
    var r := r1 + r2;
    assert r[0] == r1[0];
    assert r[1..] == r1[1..] + r2;
    if |r1| == 1 {
      assert r[1..] == r2;
    } else {
      FormatRuleJoin(r1[1..], r2);
    }
  }

  // ----- parse_rules -----------------------------------------------------------

  /** `parse_rules`: each line is stripped; blank lines are skipped; the rest are
      decoded by `literal` (Python's `ast.literal_eval`) and formatted, in
      input order. */
  function ParseRules(lines: seq<Str>, literal: Str -> Rule): (out: seq<Str>)
    ensures |out| <= |lines|
  {
    if |lines| == 0 then []
    else
      var line := Strip(lines[0]);
      if line == [] then ParseRules(lines[1..], literal)
      else [FormatRule(literal(line))] + ParseRules(lines[1..], literal)
  }

  /** Every output is the formatted rule of some non-blank input line. */
  lemma {:induction false} ParseRulesProvenance(lines: seq<Str>, literal: Str -> Rule)
    ensures forall s :: s in ParseRules(lines, literal) ==>
              exists j :: 0 <= j < |lines| && Strip(lines[j]) != [] && s == FormatRule(literal(Strip(lines[j])))
  {
    if |lines| > 0 {
      ParseRulesProvenance(lines[1..], literal);
      forall s | s in ParseRules(lines, literal)
        ensures exists j :: 0 <= j < |lines| && Strip(lines[j]) != [] && s == FormatRule(literal(Strip(lines[j])))
      {
        if s in ParseRules(lines[1..], literal) {
          var j :| 0 <= j < |lines| - 1 && Strip(lines[1..][j]) != [] && s == FormatRule(literal(Strip(lines[1..][j])));
          assert lines[1..][j] == lines[j + 1];
        } else {
          assert s == FormatRule(literal(Strip(lines[0])));
        }
      }
    }
  }

  /** Lines are processed in order: the output for a concatenation of inputs is
      the concatenation of the outputs. */
  lemma {:induction false} ParseRulesAppend(a: seq<Str>, b: seq<Str>, literal: Str -> Rule)
    ensures ParseRules(a + b, literal) == ParseRules(a, literal) + ParseRules(b, literal)
    decreases |a|
  {
    if |a| == 0 {
      assert a + b == b;
    } else {
      assert (a + b)[1..] == a[1..] + b;
      assert (a + b)[0] == a[0];
      ParseRulesAppend(a[1..], b, literal);
    }
  }

  /** A whitespace-only line produces nothing; any other line produces exactly
      the formatted rule its stripped text decodes to. */
  lemma ParseRulesOneLine(line: Str, literal: Str -> Rule)
    ensures (forall i :: 0 <= i < |line| ==> IsSpace(line[i])) ==> ParseRules([line], literal) == []
    ensures (exists i :: 0 <= i < |line| && !IsSpace(line[i])) ==>
              ParseRules([line], literal) == [FormatRule(literal(Strip(line)))]
  {
    StripEmptyIff(line);
    assert [line][1..] == [];
  }
}

=== FILE: opcodes.dfy ===
/** The static tables of the rule language: the closed opcode set with each
    opcode's symbol and arity, which argument slots hold positions or counts,
    and the 36-symbol digit alphabet those slots are written in. */
module Opcodes {
  import opened Results
  import opened Text

  /** One variant per entry of the transform table, named after what the
      transform does. */
  datatype Opcode =
    | Noop             // ':'
    | Lower            // 'l'
    | Upper            // 'u'
    | Capitalize       // 'c'
    | InvertCapitalize // 'C'
    | ToggleCase       // 't'
    | TitleCase        // 'E'
    | ToggleAt         // 'T'
    | Reverse          // 'r'
    | RotateLeft       // '{'
    | RotateRight      // '}'
    | Duplicate        // 'd'
    | Reflect          // 'f'
    | DuplicateEach    // 'q'
    | DuplicateWord    // 'p'
    | DuplicateFirst   // 'z'
    | DuplicateLast    // 'Z'
    | DuplicateBlockFront // 'y'
    | DuplicateBlockBack  // 'Y'
    | DeleteFirst      // '['
    | DeleteLast       // ']'
    | DeleteAt         // 'D'
    | Truncate         // '\''
    | Omit             // 'O'
    | Extract          // 'x'
    | Purge            // '@'
    | Append           // '$'
    | Prepend          // '^'
    | InsertAt         // 'i'
    | OverwriteAt      // 'o'
    | Substitute       // 's'
    | ShiftLeft        // 'L'
    | ShiftRight       // 'R'
    | Increment        // '+'
    | Decrement        // '-'
    | CopyNext         // '.'
    | CopyPrior        // ','
    | SwapFront        // 'k'
    | SwapBack         // 'K'
    | SwapAt           // '*'

  /** The code point of the character that names the opcode in rule text. */
  function Code(op: Opcode): int
  {
    match op
    case Noop => ':' as int
    case Lower => 'l' as int
    case Upper => 'u' as int
    case Capitalize => 'c' as int
    case InvertCapitalize => 'C' as int
    case ToggleCase => 't' as int
    case TitleCase => 'E' as int
    case ToggleAt => 'T' as int
    case Reverse => 'r' as int
    case RotateLeft => '{' as int
    case RotateRight => '}' as int
    case Duplicate => 'd' as int
    case Reflect => 'f' as int
    case DuplicateEach => 'q' as int
    case DuplicateWord => 'p' as int
    case DuplicateFirst => 'z' as int
    case DuplicateLast => 'Z' as int
    case DuplicateBlockFront => 'y' as int
    case DuplicateBlockBack => 'Y' as int
    case DeleteFirst => '[' as int
    case DeleteLast => ']' as int
    case DeleteAt => 'D' as int
    case Truncate => '\'' as int
    case Omit => 'O' as int
    case Extract => 'x' as int
    case Purge => '@' as int
    case Append => '$' as int
    case Prepend => '^' as int
    case InsertAt => 'i' as int
    case OverwriteAt => 'o' as int
    case Substitute => 's' as int
    case ShiftLeft => 'L' as int
    case ShiftRight => 'R' as int
    case Increment => '+' as int
    case Decrement => '-' as int
    case CopyNext => '.' as int
    case CopyPrior => ',' as int
    case SwapFront => 'k' as int
    case SwapBack => 'K' as int
    case SwapAt => '*' as int
  }

  /** Every opcode symbol is a printable ASCII character other than space. */
  lemma CodeIsPrintable(op: Opcode)
    ensures 0x20 < Code(op) < 0x7F
  {
  }

  /** The opcode's symbol as a character of rule text. */
  function Symbol(op: Opcode): (c: CodePoint)
    ensures c == Code(op)
  {
    CodeIsPrintable(op);
    Code(op)
  }

  /** The transform-table lookup `hashcat_rule[c]`: `None` for a code point
      that names no opcode. */
  function Lookup(c: CodePoint): (r: Option<Opcode>)
    ensures r.Some? ==> Code(r.value) == c
  {
    if c == ':' as int then Some(Noop)
    else if c == 'l' as int then Some(Lower)
    else if c == 'u' as int then Some(Upper)
    else if c == 'c' as int then Some(Capitalize)
    else if c == 'C' as int then Some(InvertCapitalize)
    else if c == 't' as int then Some(ToggleCase)
    else if c == 'E' as int then Some(TitleCase)
    else if c == 'T' as int then Some(ToggleAt)
    else if c == 'r' as int then Some(Reverse)
    else if c == '{' as int then Some(RotateLeft)
    else if c == '}' as int then Some(RotateRight)
    else if c == 'd' as int then Some(Duplicate)
    else if c == 'f' as int then Some(Reflect)
    else if c == 'q' as int then Some(DuplicateEach)
    else if c == 'p' as int then Some(DuplicateWord)
    else if c == 'z' as int then Some(DuplicateFirst)
    else if c == 'Z' as int then Some(DuplicateLast)
    else if c == 'y' as int then Some(DuplicateBlockFront)
    else if c == 'Y' as int then Some(DuplicateBlockBack)
    else if c == '[' as int then Some(DeleteFirst)
    else if c == ']' as int then Some(DeleteLast)
    else if c == 'D' as int then Some(DeleteAt)
    else if c == '\'' as int then Some(Truncate)
    else if c == 'O' as int then Some(Omit)
    else if c == 'x' as int then Some(Extract)
    else if c == '@' as int then Some(Purge)
    else if c == '$' as int then Some(Append)
    else if c == '^' as int then Some(Prepend)
    else if c == 'i' as int then Some(InsertAt)
    else if c == 'o' as int then Some(OverwriteAt)
    else if c == 's' as int then Some(Substitute)
    else if c == 'L' as int then Some(ShiftLeft)
    else if c == 'R' as int then Some(ShiftRight)
    else if c == '+' as int then Some(Increment)
    else if c == '-' as int then Some(Decrement)
    else if c == '.' as int then Some(CopyNext)
    else if c == ',' as int then Some(CopyPrior)
    else if c == 'k' as int then Some(SwapFront)
    else if c == 'K' as int then Some(SwapBack)
    else if c == '*' as int then Some(SwapAt)
    else None
  }

  /** Every opcode's symbol looks up to that opcode, so the symbols are
      pairwise distinct and the table is total over them. */
  lemma LookupSymbol(op: Opcode)
    ensures Lookup(Symbol(op)) == Some(op)
  {
  }

  /** The number of argument characters the opcode takes after the subject:
      one less than the transform's parameter count. */
  function Arity(op: Opcode): (n: nat)
    ensures n <= 2
  {
    match op
    case ToggleAt | DuplicateWord | DuplicateFirst | DuplicateLast
      | DuplicateBlockFront | DuplicateBlockBack | DeleteAt | Truncate
      | Purge | Append | Prepend | ShiftLeft | ShiftRight | Increment
      | Decrement | CopyNext | CopyPrior => 1
    case Omit | Extract | InsertAt | OverwriteAt | Substitute | SwapAt => 2
    case _ => 0
  }

  /** The symbols whose first argument goes through the digit alphabet, as
      the parser lists them. */
  const FirstSlotDecoded: string := "TpZzYyD'xOoLR+-.,*i"

  /** The symbols whose second argument goes through the digit alphabet. */
  const SecondSlotDecoded: string := "xO*"

  /** The code points of the two lists. */
  const FirstSlotCodes: set<int> := {'T' as int, 'p' as int, 'Z' as int, 'z' as int, 'Y' as int, 'y' as int, 'D' as int, '\'' as int, 'x' as int, 'O' as int, 'o' as int, 'L' as int, 'R' as int, '+' as int, '-' as int, '.' as int, ',' as int, '*' as int, 'i' as int}
  const SecondSlotCodes: set<int> := {'x' as int, 'O' as int, '*' as int}

  /** The two lists spelled out as code points. */
  lemma DecodedListsSpelled()
    ensures forall c :: c in Lit(FirstSlotDecoded) <==> c in FirstSlotCodes
    ensures forall c :: c in Lit(SecondSlotDecoded) <==> c in SecondSlotCodes
  {
    assert Lit(FirstSlotDecoded) == ['T' as int, 'p' as int, 'Z' as int, 'z' as int, 'Y' as int, 'y' as int, 'D' as int, '\'' as int, 'x' as int, 'O' as int, 'o' as int, 'L' as int, 'R' as int, '+' as int, '-' as int, '.' as int, ',' as int, '*' as int, 'i' as int];
    assert Lit(SecondSlotDecoded) == ['x' as int, 'O' as int, '*' as int];
  }

  /** The opcodes whose first argument is a position or count. */
  const FirstSlotOps: set<Opcode> :=
    {ToggleAt, DuplicateWord, DuplicateLast, DuplicateFirst,
     DuplicateBlockBack, DuplicateBlockFront, DeleteAt, Truncate,
     Extract, Omit, OverwriteAt, ShiftLeft, ShiftRight, Increment,
     Decrement, CopyNext, CopyPrior, SwapAt, InsertAt}

  /** The opcodes whose second argument is a position or count. */
  const SecondSlotOps: set<Opcode> := {Extract, Omit, SwapAt}

  /** Opcode by opcode, the two opcode sets have exactly the listed symbols. */
  lemma SlotOpsListed(op: Opcode)
    ensures op in FirstSlotOps <==> Code(op) in FirstSlotCodes
    ensures op in SecondSlotOps <==> Code(op) in SecondSlotCodes
  {
    match op
      case Noop =>
      case Lower =>
      case Upper =>
      case Capitalize =>
      case InvertCapitalize =>
      case ToggleCase =>
      case TitleCase =>
      case ToggleAt =>
      case Reverse =>
      case RotateLeft =>
      case RotateRight =>
      case Duplicate =>
      case Reflect =>
      case DuplicateEach =>
      case DuplicateWord =>
      case DuplicateFirst =>
      case DuplicateLast =>
      case DuplicateBlockFront =>
      case DuplicateBlockBack =>
      case DeleteFirst =>
      case DeleteLast =>
      case DeleteAt =>
      case Truncate =>
      case Omit =>
      case Extract =>
      case Purge =>
      case Append =>
      case Prepend =>
      case InsertAt =>
      case OverwriteAt =>
      case Substitute =>
      case ShiftLeft =>
      case ShiftRight =>
      case Increment =>
      case Decrement =>
      case CopyNext =>
      case CopyPrior =>
      case SwapFront =>
      case SwapBack =>
      case SwapAt =>
  }

  /** Whether argument slot `k` of `op` is a position or count decoded through
      the digit alphabet (slot 0 of every opcode taking arguments except
      `@ $ ^ s`; slot 1 of `x O *`), as opposed to a literal character. */
  predicate IsNumSlot(op: Opcode, k: nat)
    ensures k == 0 ==> (IsNumSlot(op, k) <==> Code(op) in Lit(FirstSlotDecoded))
    ensures k == 1 ==> (IsNumSlot(op, k) <==> Code(op) in Lit(SecondSlotDecoded))
  {
    DecodedListsSpelled();
    SlotOpsListed(op);
    if k == 0 then op in FirstSlotOps
    else if k == 1 then op in SecondSlotOps
    else false
  }

  /** Decoded slots always lie within the opcode's arity, and every opcode
      with arguments other than `@ $ ^ s` has a decoded first slot. */
  lemma NumSlotsWithinArity(op: Opcode, k: nat)
    ensures IsNumSlot(op, k) ==> k < Arity(op)
    ensures k == 0 && Arity(op) > 0 ==>
              (IsNumSlot(op, 0) <==> op !in {Purge, Append, Prepend, Substitute})
  {
  }

  // ----- the digit alphabet ------------------------------------------------------

  /** The alphabet lookup `_i[c]`: '0'..'9' are 0..9 and 'A'..'Z' are 10..35;
      any other code point, lower-case letters included, is not a digit. */
  function Digit(c: CodePoint): (r: Option<nat>)
    ensures r.Some? ==> r.value < 36
  {
    if '0' as int <= c <= '9' as int then Some(c - '0' as int)
    else if 'A' as int <= c <= 'Z' as int then Some(c - 'A' as int + 10)
    else None
  }

  /** The alphabet symbol for a value 0..35. */
  function DigitSymbol(n: nat): CodePoint
    requires n < 36
  {
    if n < 10 then '0' as int + n else 'A' as int + (n - 10)
  }

  /** The alphabet is a bijection between its 36 symbols and 0..35. */
  lemma DigitBijection(c: CodePoint, n: nat)
    requires n < 36
    ensures Digit(DigitSymbol(n)) == Some(n)
    ensures Digit(c) == Some(n) <==> c == DigitSymbol(n)
  {
  }
}

=== FILE: parser.dfy ===
/** `parse_rule`: tokenising one rule line into actions. Each step reads an
    opcode character, takes up to `Arity` argument characters (fewer when the
    line runs out), decodes the position and count slots through the digit
    alphabet, and then skips one more character, whatever it is. */
module Parser {
  import opened Results
  import opened Text
  import opened Opcodes
  import opened Transforms

  /** What `parse_rule` raises. */
  datatype ParseError =
    | UnknownOpcode(c: CodePoint)  // KeyError from the arity table
    | MissingArgument(op: Opcode)  // IndexError: a decoded slot is absent
    | InvalidDigit(c: CodePoint)   // KeyError from the digit alphabet

  /** `[*raw]`: every argument character taken as a literal. */
  function Literals(raw: Str): (args: seq<Arg>)
    ensures |args| == |raw|
    ensures forall k :: 0 <= k < |raw| ==> args[k] == Chr(raw[k])
  {
    seq(|raw|, k requires 0 <= k < |raw| => Chr(raw[k]))
  }

  /** `args[k] = _i[args[k]]` on the still-literal slot `k`. */
  function DecodeSlot(op: Opcode, args: seq<Arg>, k: nat): (r: Result<seq<Arg>, ParseError>)
    requires k < |args| ==> args[k].Chr?
    ensures r.Ok? <==> k < |args| && Digit(args[k].c).Some?
    ensures r.Ok? ==> r.value == args[k := Num(Digit(args[k].c).value)]
  {
    if k >= |args| then Err(MissingArgument(op))
    else match Digit(args[k].c)
      case None => Err(InvalidDigit(args[k].c))
      case Some(n) => Ok(args[k := Num(n)])
  }

  /** The argument list of one action: the raw characters, with slot 0 and
      then slot 1 decoded where the opcode reads a position or count. */
  function DecodeArgs(op: Opcode, raw: Str): (r: Result<seq<Arg>, ParseError>)
    ensures r.Ok? ==> |r.value| == |raw|
    ensures r.Ok? ==> forall k :: 0 <= k < |raw| && !IsNumSlot(op, k) ==> r.value[k] == Chr(raw[k])
    ensures r.Err? ==> r.error == MissingArgument(op) || (r.error.InvalidDigit? && r.error.c in raw)
  {
    var args0 := Literals(raw);
    var args1 :- if IsNumSlot(op, 0) then DecodeSlot(op, args0, 0) else Ok(args0);
    if IsNumSlot(op, 1) then DecodeSlot(op, args1, 1) else Ok(args1)
  }

  /** What a decoded argument list looks like: it has every decoded slot,
      holds numbers 0..35 exactly in those slots, and characters of the line
      elsewhere. */
  predicate DecodedFrom(op: Opcode, raw: Str, args: seq<Arg>)
  {
    && |args| == |raw|
    && (forall k :: 0 <= k < 2 && IsNumSlot(op, k) ==> k < |raw|)
    && forall k :: 0 <= k < |raw| ==>
         if IsNumSlot(op, k) then Digit(raw[k]).Some? && args[k] == Num(Digit(raw[k]).value)
         else args[k] == Chr(raw[k])
  }

  /** Decoding succeeds exactly when every decoded slot is present and is an
      alphabet symbol, and then yields the decoded list. */
  lemma DecodeArgsSpec(op: Opcode, raw: Str)
    requires |raw| <= Arity(op)
    ensures DecodeArgs(op, raw).Ok? <==>
              forall k :: 0 <= k < 2 && IsNumSlot(op, k) ==> k < |raw| && Digit(raw[k]).Some?
    ensures DecodeArgs(op, raw).Ok? ==> DecodedFrom(op, raw, DecodeArgs(op, raw).value)
  {
    NumSlotsWithinArity(op, 0);
    NumSlotsWithinArity(op, 1);
    forall k: nat | 2 <= k ensures !IsNumSlot(op, k) {
    }
  }

  /** The shape of every action `parse_rule` produces: no more arguments than
      the arity, numbers exactly in the decoded slots, each in 0..35, and
      every decoded slot present. Only literal slots may be missing. */
  predicate Parsed(a: Action)
  {
    && |a.args| <= Arity(a.op)
    && (forall k :: 0 <= k < 2 && IsNumSlot(a.op, k) ==> k < |a.args|)
    && forall k :: 0 <= k < |a.args| ==>
         (a.args[k].Num? <==> IsNumSlot(a.op, k)) && (a.args[k].Num? ==> 0 <= a.args[k].n < 36)
  }

  /** `parse_rule`. */
  function Parse(t: Str): (r: Result<Rule, ParseError>)
    ensures |t| == 0 ==> r == Ok([])
    ensures |t| > 0 && Lookup(t[0]).None? ==> r == Err(UnknownOpcode(t[0]))
    ensures r.Ok? ==> |r.value| <= |t|
    ensures r.Ok? ==> forall i :: 0 <= i < |r.value| ==> Parsed(r.value[i])
    decreases |t|
  {
    if |t| == 0 then Ok([])
    else match Lookup(t[0])
      case None => Err(UnknownOpcode(t[0]))
      case Some(op) =>
        var n := Arity(op);
        var raw := Slice(t, 1, 1 + n);
        DecodeArgsSpec(op, raw);
        var args :- DecodeArgs(op, raw);
        var rest :- Parse(Drop(t, 1 + n + 1));
        Ok([Action(op, args)] + rest)
  }

  /** `Parse` on a line whose first character is the opcode `op`. */
  lemma ParseUnfold(t: Str, op: Opcode)
    requires |t| > 0 && Lookup(t[0]) == Some(op)
    ensures Parse(t) ==
              match DecodeArgs(op, Slice(t, 1, 1 + Arity(op)))
              case Err(e) => Err(e)
              case Ok(args) =>
                match Parse(Drop(t, Arity(op) + 2))
                case Err(e) => Err(e)
                case Ok(tail) => Ok([Action(op, args)] + tail)
  {
  }

  /** `Parse` when the first action's arguments decode and the rest parses. */
  lemma ParseUnfoldOk(t: Str, op: Opcode, args: seq<Arg>, tail: Rule)
    requires |t| > 0 && Lookup(t[0]) == Some(op)
    requires DecodeArgs(op, Slice(t, 1, 1 + Arity(op))) == Ok(args)
    requires Parse(Drop(t, Arity(op) + 2)) == Ok(tail)
    ensures Parse(t) == Ok([Action(op, args)] + tail)
  {
    ParseUnfold(t, op);
  }

  /** One step of the tokenizer: an opcode, exactly `Arity` argument
      characters that decode, and any separator character are consumed as one
      action, and parsing continues after the separator. */
  lemma ParseStep(op: Opcode, argText: Str, sep: CodePoint, rest: Str)
    requires |argText| == Arity(op)
    requires DecodeArgs(op, argText).Ok?
    ensures Parse([Symbol(op)] + argText + [sep] + rest) ==
              match Parse(rest)
              case Ok(tail) => Ok([Action(op, DecodeArgs(op, argText).value)] + tail)
              case Err(e) => Err(e)
  {
    var t := [Symbol(op)] + argText + [sep] + rest;
    LookupSymbol(op);
    assert t[0] == Symbol(op);
    assert 0 <= 1 <= 1 + Arity(op) <= |t|;
    assert t[1..1 + |argText|] == argText;
    assert Slice(t, 1, 1 + Arity(op)) == argText;
    assert Drop(t, Arity(op) + 2) == rest;
    ParseUnfold(t, op);
  }

  /** The last action of a line needs no separator, and a literal argument
      that the line lacks is simply absent: `"$"` parses to `('$', [])`. */
  lemma ParseFinal(op: Opcode, argText: Str)
    requires |argText| <= Arity(op)
    requires DecodeArgs(op, argText).Ok?
    ensures Parse([Symbol(op)] + argText) == Ok([Action(op, DecodeArgs(op, argText).value)])
  {
    var t := [Symbol(op)] + argText;
    var args := DecodeArgs(op, argText).value;
    LookupSymbol(op);
    assert t[0] == Symbol(op);
    assert t[1..] == argText;
    assert Slice(t, 1, 1 + Arity(op)) == argText;
    assert Drop(t, Arity(op) + 2) == [];
    assert Parse([]) == Ok([]);
    ParseUnfoldOk(t, op, args, []);
    assert [Action(op, args)] + [] == [Action(op, args)];
  }

  /** A position or count slot written with a character outside the digit
      alphabet -- a lower-case letter, say -- is a parse error. */
  lemma ParseInvalidDigit(op: Opcode, c: CodePoint, rest: Str)
    requires IsNumSlot(op, 0)
    requires Digit(c).None?
    ensures Parse([Symbol(op), c] + rest) == Err(InvalidDigit(c))
  {
    var t := [Symbol(op), c] + rest;
    LookupSymbol(op);
    NumSlotsWithinArity(op, 0);
    assert t[0] == Symbol(op);
    var raw := Slice(t, 1, 1 + Arity(op));
    assert raw[0] == c;
  }

  /** An opcode whose position slot is cut off by the end of the line is a
      parse error, unlike a missing literal. */
  lemma ParseMissingPosition(op: Opcode)
    requires IsNumSlot(op, 0)
    ensures Parse([Symbol(op)]) == Err(MissingArgument(op))
  {
    LookupSymbol(op);
    assert Slice([Symbol(op)], 1, 1 + Arity(op)) == [];
  }
}

=== FILE: results.dfy ===
/** Outcomes of the rule engine's partial operations. Where the Python code
    raises, the model returns `Err` (or `None` for a missing key); the `:-`
    operator then stops at the first failure just as an uncaught exception
    would. The three members of each type are the ones `:-` requires. */
module Results {

  /** A lookup that may miss: a dictionary key or a string index. */
  datatype Option<+T> = None | Some(value: T) {

    // A missed lookup stops the enclosing `:-` chain.
    predicate IsFailure() {
      None?
    }

    // The miss, carried on through a chain of another value type.
    function PropagateFailure<U>(): Option<U>
      requires None?
    {
      None
    }

    // The found value, bound by `:-` when the lookup hit.
    function Extract(): T
      requires Some?
    {
      value
    }
  }

  /** A computed value, or the error standing for the exception Python
      would raise at that point. */
  datatype Result<+T, +E> = Ok(value: T) | Err(error: E) {

    // An error stops the enclosing `:-` chain.
    predicate IsFailure() {
      Err?
    }

    // The same error, passed on unchanged through a chain of another type.
    function PropagateFailure<U>(): Result<U, E>
      requires Err?
    {
      Err(error)
    }

    // The computed value, bound by `:-` on success.
    function Extract(): T
      requires Ok?
    {
      value
    }
  }
}

=== FILE: roundtrip.dfy ===
/** Parsing formatted rules back: `parse_rule(format_rule(r)) == r` for rules
    whose numbers are single decimal digits, why it breaks for 10..35, and a
    formatter that writes numbers in the digit alphabet, for which it holds
    across the whole range the parser produces. */
module RoundTrip {
  import opened Results
  import opened Text
  import opened Opcodes
  import opened Transforms
  import opened Parser
  import opened Formatter

  /** An action the formatter can write for the parser to read back: a full
      argument list of the right kinds, with every number below `bound`. */
  predicate Fits(a: Action, bound: nat)
  {
    WellTyped(a.op, a.args) && InBound(a.args, bound)
  }

  /** The payload text of a fitting action decodes to its own arguments. */
  lemma PayloadDecodes(a: Action, render: Arg -> Str, bound: nat)
    requires Singly(render, bound) && Fits(a, bound)
    ensures |Payload(a.args, render)| == Arity(a.op)
    ensures DecodeArgs(a.op, Payload(a.args, render)) == Ok(a.args)
  {
    var raw := Payload(a.args, render);
    PayloadLayout(a.args, render, bound);
    NumSlotsWithinArity(a.op, 0);
    NumSlotsWithinArity(a.op, 1);
    forall k | 0 <= k < |raw| && IsNumSlot(a.op, k)
      ensures Digit(raw[k]) == Some(a.args[k].n)
    {
      DigitBijection(raw[k], a.args[k].n);
    }
    DecodeArgsSpec(a.op, raw);
    var v := DecodeArgs(a.op, raw).value;
    assert v == a.args;
  }

  /** Parsing a rule rendered with one character per argument and a space
      between actions gives back the rule. */
  lemma {:induction false} RenderRoundTrip(r: Rule, render: Arg -> Str, bound: nat)
    requires Singly(render, bound)
    requires forall i :: 0 <= i < |r| ==> Fits(r[i], bound)
    ensures Parse(RuleText(r, render)) == Ok(r)
    decreases |r|
  {
    if |r| > 0 {
      var a := r[0];
      var argText := Payload(a.args, render);
      PayloadDecodes(a, render, bound);
      assert ActionText(a, render) == [Symbol(a.op)] + argText;
      if |r| == 1 {
        ParseFinal(a.op, argText);
        assert [a] == r;
      } else {
        RenderRoundTrip(r[1..], render, bound);
        ParseStep(a.op, argText, Space, RuleText(r[1..], render));
        assert RuleText(r, render) == [Symbol(a.op)] + argText + [Space] + RuleText(r[1..], render);
        assert [a] + r[1..] == r;
      }
    }
  }

  /** `parse_rule(format_rule(r)) == r` when every action has its full argument
      list of the right kinds and every number is 0..9. */
  lemma FormatThenParse(r: Rule)
    requires forall i :: 0 <= i < |r| ==> Fits(r[i], 10)
    ensures Parse(FormatRule(r)) == Ok(r)
  {
    PyStrSingly();
    RenderRoundTrip(r, PyStr, 10);
  }

  /** `str(n)` writes 10..99 as two decimal digits; the parser decodes the first
      as the position and skips the second as if it were the separator, so
      `('D', [10])` formats to `"D10"` and reads back as `('D', [1])`. */
  lemma DecimalBreaksRoundTrip(op: Opcode, n: int)
    requires Arity(op) == 1 && IsNumSlot(op, 0)
    requires 10 <= n < 100
    ensures FormatRule([Action(op, [Num(n)])]) == [Symbol(op), '0' as int + n / 10, '0' as int + n % 10]
    ensures Parse(FormatRule([Action(op, [Num(n)])])) == Ok([Action(op, [Num(n / 10)])])
    ensures Parse(FormatRule([Action(op, [Num(n)])])) != Ok([Action(op, [Num(n)])])
  {
    var text := FormatRule([Action(op, [Num(n)])]);
    assert Digits(n) == Digits(n / 10) + ['0' as int + n % 10];
    assert Payload([Num(n)], PyStr) == ['0' as int + n / 10, '0' as int + n % 10];
    assert text == [Symbol(op)] + ['0' as int + n / 10] + ['0' as int + n % 10] + [];
    assert text == [Symbol(op), '0' as int + n / 10, '0' as int + n % 10];
    var d: CodePoint := '0' as int + n / 10;
    DigitBijection(d, n / 10);
    DecodeArgsSpec(op, [d]);
    assert DecodeArgs(op, [d]).value == [Num(n / 10)];
    ParseStep(op, [d], '0' as int + n % 10, []);
    assert text == [Symbol(op)] + [d] + ['0' as int + n % 10] + [];
    assert Parse([]) == Ok([]);
    assert [Action(op, [Num(n / 10)])] + [] == [Action(op, [Num(n / 10)])];
  }

  /** With numbers written in the digit alphabet the round trip holds for every
      position and count the parser can produce, 0..35. */
  lemma AlphabetRoundTrip(r: Rule)
    requires forall i :: 0 <= i < |r| ==> Fits(r[i], 36)
    ensures Parse(FormatRuleAlphabet(r)) == Ok(r)
  {
    RenderRoundTrip(r, AlphabetStr, 36);
  }

  /** The alphabet formatter agrees with `format_rule` wherever `format_rule`
      round-trips: on numbers 0..9 the two write the same text. */
  lemma AlphabetAgreesOnDigits(r: Rule)
    requires forall i :: 0 <= i < |r| ==> InBound(r[i].args, 10)
    ensures FormatRuleAlphabet(r) == FormatRule(r)
  {
    PyStrSingly();
    forall i | 0 <= i < |r| ensures ActionText(r[i], AlphabetStr) == ActionText(r[i], PyStr) {
      PayloadLayout(r[i].args, AlphabetStr, 10);
      PayloadLayout(r[i].args, PyStr, 10);
    }
    RuleTextAgrees(r, AlphabetStr, PyStr);
  }

  lemma {:induction false} RuleTextAgrees(r: Rule, f: Arg -> Str, g: Arg -> Str)
    requires forall i :: 0 <= i < |r| ==> ActionText(r[i], f) == ActionText(r[i], g)
    ensures RuleText(r, f) == RuleText(r, g)
    decreases |r|
  {
    if |r| > 1 {
      RuleTextAgrees(r[1..], f, g);
    }
  }
}

=== FILE: text.dfy ===
/** Python `str` values and the handful of `str` operations the rule engine uses:
    clamping slices, wrapping indexing, ASCII case mapping, `split`, `join`,
    `replace` and `strip`. */
module Text {
  import opened Results

  /** A Python code point. Python strings may hold lone surrogates, so this is
      every integer 0..0x10FFFF rather than Dafny's `char`. */
  type CodePoint = c: int | 0 <= c <= 0x10_FFFF

  /** A Python `str`. */
  type Str = seq<CodePoint>

  const Space: CodePoint := 0x20

  /** The code points of a Dafny string literal. */
  function Lit(s: string): (r: Str)
    ensures |r| == |s|
    ensures forall i :: 0 <= i < |s| ==> r[i] == s[i] as int
  {
    seq(|s|, i requires 0 <= i < |s| => s[i] as int)
  }

  // ----- slicing and indexing -------------------------------------------------

  /** A slice bound `i` of `x[a:b]` normalised against length `n`: negative
      bounds count from the end, and anything out of range is clamped. */
  function Bound(i: int, n: nat): (b: nat)
    ensures b <= n
    ensures 0 <= i <= n ==> b == i
    ensures i > n ==> b == n
    ensures i < 0 <= i + n ==> b == i + n
    ensures i + n < 0 ==> b == 0
  {
    if i < 0 then (if i + n < 0 then 0 else i + n)
    else if i > n then n
    else i
  }

  /** Python's `x[lo:hi]`: never fails; each bound is counted from the end
      when negative and clamped to the word, whatever the other's sign. */
  function Slice<T>(x: seq<T>, lo: int, hi: int): (r: seq<T>)
    ensures |r| <= |x|
    ensures 0 <= lo <= hi <= |x| ==> r == x[lo..hi]
    ensures 0 <= lo <= |x| <= hi ==> r == x[lo..]
    ensures lo <= -|x| && 0 <= hi <= |x| ==> r == x[..hi]
    ensures -|x| <= lo <= hi < 0 ==> r == x[lo + |x|..hi + |x|]
    ensures -|x| <= lo < 0 <= hi <= |x| ==> r == (if lo + |x| < hi then x[lo + |x|..hi] else [])
    ensures 0 <= lo <= |x| && -|x| <= hi < 0 ==> r == (if lo < hi + |x| then x[lo..hi + |x|] else [])
    ensures -|x| <= lo < 0 && hi >= |x| ==> r == x[lo + |x|..]
    ensures lo <= -|x| && -|x| <= hi < 0 ==> r == x[..hi + |x|]
    ensures lo <= -|x| && hi >= |x| ==> r == x
    ensures hi <= lo && (0 <= hi || lo < 0) ==> r == []
    ensures lo >= |x| || hi <= -|x| ==> r == []
  {
    var a := Bound(lo, |x|);
    var b := Bound(hi, |x|);
    if a < b then x[a..b] else []
  }

  /** Python's `x[:hi]`. */
  function Take<T>(x: seq<T>, hi: int): (r: seq<T>)
    ensures 0 <= hi <= |x| ==> r == x[..hi]
    ensures hi >= |x| ==> r == x
    ensures -|x| <= hi < 0 ==> r == x[..hi + |x|]
    ensures hi <= -|x| ==> r == []
  {
    Slice(x, 0, hi)
  }

  /** Python's `x[lo:]`. */
  function Drop<T>(x: seq<T>, lo: int): (r: seq<T>)
    ensures 0 <= lo <= |x| ==> r == x[lo..]
    ensures lo >= |x| ==> r == []
    ensures -|x| <= lo < 0 ==> r == x[lo + |x|..]
    ensures lo <= -|x| ==> r == x
  {
    Slice(x, lo, |x|)
  }

  /** Python's `x[i]`: negative indices count from the end; anything outside
      `-|x| .. |x|-1` raises `IndexError`, here `None`. */
  function At<T>(x: seq<T>, i: int): (r: Option<T>)
    ensures r.Some? <==> -|x| <= i < |x|
    ensures 0 <= i < |x| ==> r == Some(x[i])
    ensures -|x| <= i < 0 ==> r == Some(x[|x| + i])
  {
    if 0 <= i < |x| then Some(x[i])
    else if -|x| <= i < 0 then Some(x[|x| + i])
    else None
  }

  // ----- ASCII case mapping ---------------------------------------------------

  predicate IsUpper(c: CodePoint) {
    'A' as int <= c <= 'Z' as int
  }

  predicate IsLower(c: CodePoint) {
    'a' as int <= c <= 'z' as int
  }

  /** `c.lower()` for ASCII letters; every other code point is left alone. */
  function ToLower(c: CodePoint): (r: CodePoint)
    ensures !IsUpper(r)
    ensures !IsUpper(c) ==> r == c
  {
    if IsUpper(c) then c + 32 else c
  }

  /** `c.upper()` for ASCII letters; every other code point is left alone. */
  function ToUpper(c: CodePoint): (r: CodePoint)
    ensures !IsLower(r)
    ensures !IsLower(c) ==> r == c
  {
    if IsLower(c) then c - 32 else c
  }

  /** `c.swapcase()` for ASCII letters. */
  function SwapCase(c: CodePoint): (r: CodePoint)
    ensures IsUpper(c) <==> IsLower(r)
    ensures IsLower(c) <==> IsUpper(r)
  {
    if IsUpper(c) then c + 32 else if IsLower(c) then c - 32 else c
  }

  /** `x.lower()`. */
  function LowerAll(x: Str): (r: Str)
    ensures |r| == |x|
    ensures forall i :: 0 <= i < |x| ==> r[i] == ToLower(x[i])
  {
    seq(|x|, i requires 0 <= i < |x| => ToLower(x[i]))
  }

  /** `x.upper()`. */
  function UpperAll(x: Str): (r: Str)
    ensures |r| == |x|
    ensures forall i :: 0 <= i < |x| ==> r[i] == ToUpper(x[i])
  {
    seq(|x|, i requires 0 <= i < |x| => ToUpper(x[i]))
  }

  /** `x.swapcase()`. */
  function SwapAll(x: Str): (r: Str)
    ensures |r| == |x|
    ensures forall i :: 0 <= i < |x| ==> r[i] == SwapCase(x[i])
  {
    seq(|x|, i requires 0 <= i < |x| => SwapCase(x[i]))
  }

  // ----- whole-string rearrangements -------------------------------------------

  /** `x[::-1]`. */
  function Reversed<T>(x: seq<T>): (r: seq<T>)
    ensures |r| == |x|
    ensures forall i :: 0 <= i < |x| ==> r[i] == x[|x| - 1 - i]
  {
    seq(|x|, i requires 0 <= i < |x| => x[|x| - 1 - i])
  }

  /** `x * n`: `n` copies of `x`, and the empty string when `n <= 0`. */
  function Repeat<T>(x: seq<T>, n: int): (r: seq<T>)
    ensures n <= 0 ==> r == []
    ensures n >= 0 ==> |r| == |x| * n
    ensures n > 0 ==> |r| >= |x| && r[..|x|] == x
    ensures forall i :: 0 <= i < |r| - |x| ==> r[i + |x|] == r[i]
    decreases n
  {
    if n <= 0 then [] else x + Repeat(x, n - 1)
  }

  /** `"".join([i + i for i in x])`. */
  function DoubleEach<T>(x: seq<T>): (r: seq<T>)
    ensures |r| == 2 * |x|
    ensures forall i :: 0 <= i < 2 * |x| ==> r[i] == x[i / 2]
  {
    seq(2 * |x|, i requires 0 <= i < 2 * |x| => x[i / 2])
  }

  /** `x.replace(a, b)` for single code points `a` and `b`. */
  function ReplaceAll(x: Str, a: CodePoint, b: CodePoint): (r: Str)
    ensures |r| == |x|
    ensures forall i :: 0 <= i < |x| ==> r[i] == (if x[i] == a then b else x[i])
  {
    seq(|x|, i requires 0 <= i < |x| => if x[i] == a then b else x[i])
  }

  /** `x.replace(a, '')` for a single code point `a`. */
  function RemoveAll(x: Str, a: CodePoint): (r: Str)
    ensures |r| <= |x|
    ensures a !in r
    ensures forall c :: c in r ==> c in x
    ensures forall c :: c in x && c != a ==> c in r
    ensures multiset(r) == multiset(x)[a := 0]
    ensures |x| == 1 ==> r == (if x[0] == a then [] else x)
  {
    if |x| == 0 then []
    else
      assert x == [x[0]] + x[1..];
      if x[0] == a then RemoveAll(x[1..], a)
      else [x[0]] + RemoveAll(x[1..], a)
  }

  /** Removal works piecewise, so the kept characters stay in their order:
      with the one-character cases this determines `RemoveAll` completely. */
  lemma {:induction false} RemoveAllConcat(x1: Str, x2: Str, a: CodePoint)
    ensures RemoveAll(x1 + x2, a) == RemoveAll(x1, a) + RemoveAll(x2, a)
    decreases |x1|
  {
    if |x1| == 0 {
      assert x1 + x2 == x2;
    } else {
      assert (x1 + x2)[0] == x1[0];
      assert (x1 + x2)[1..] == x1[1..] + x2;
      RemoveAllConcat(x1[1..], x2, a);
    }
  }

  // ----- split and join on one separator -----------------------------------------

  /** The index of the first `sep` in `x`, or `|x|` when there is none. */
  function FirstIndex(x: Str, sep: CodePoint): (k: nat)
    ensures k <= |x|
    ensures k < |x| ==> x[k] == sep
    ensures forall i :: 0 <= i < k ==> x[i] != sep
  {
    if |x| == 0 then 0
    else if x[0] == sep then 0
    else 1 + FirstIndex(x[1..], sep)
  }

  /** `x.split(sep)` with an explicit one-character separator: every
      occurrence splits, so adjacent, leading or trailing separators yield
      empty pieces, and `"".split(sep)` is `[""]`. */
  function Split(x: Str, sep: CodePoint): (pieces: seq<Str>)
    ensures |pieces| > 0
    ensures forall p :: p in pieces ==> sep !in p
    decreases |x|
  {
    var k := FirstIndex(x, sep);
    if k == |x| then [x]
    else [x[..k]] + Split(x[k + 1..], sep)
  }

  /** `sep.join(pieces)`: the pieces in order, with `sep` between each two. */
  function Join(pieces: seq<Str>, sep: CodePoint): Str
  {
    if |pieces| == 0 then []
    else if |pieces| == 1 then pieces[0]
    else pieces[0] + [sep] + Join(pieces[1..], sep)
  }

  /** The joined text is empty for no pieces, starts with the first piece,
      and has `sep` right after it when there are more. */
  lemma JoinLayout(pieces: seq<Str>, sep: CodePoint)
    ensures pieces == [] ==> Join(pieces, sep) == []
    ensures |pieces| > 0 ==> |Join(pieces, sep)| >= |pieces[0]| && Join(pieces, sep)[..|pieces[0]|] == pieces[0]
    ensures |pieces| > 1 ==> |Join(pieces, sep)| > |pieces[0]| && Join(pieces, sep)[|pieces[0]|] == sep
  {
  }

  lemma {:induction false} JoinSplit(x: Str, sep: CodePoint)
    ensures Join(Split(x, sep), sep) == x
    decreases |x|
  {
    var k := FirstIndex(x, sep);
    if k < |x| {
      var rest := x[k + 1..];
      JoinSplit(rest, sep);
      var tail := Split(rest, sep);
      var pieces := Split(x, sep);
      assert pieces == [x[..k]] + tail;
      assert pieces[1..] == tail;
      assert Join(pieces, sep) == x[..k] + [sep] + Join(tail, sep);
      assert x == x[..k] + [sep] + rest;
    } else {
      assert Split(x, sep) == [x];
    }
  }

  // ----- strip -----------------------------------------------------------------

  /** Python's `str.isspace()` for one code point: the separators `strip()`
      removes. */
  predicate IsSpace(c: CodePoint) {
    || 0x09 <= c <= 0x0D
    || 0x1C <= c <= 0x20
    || c == 0x85 || c == 0xA0 || c == 0x1680
    || 0x2000 <= c <= 0x200A
    || c == 0x2028 || c == 0x2029 || c == 0x202F || c == 0x205F || c == 0x3000
  }

  function StripLeft(x: Str): (r: Str)
    ensures |r| <= |x| && r == x[|x| - |r|..]
    ensures forall i :: 0 <= i < |x| - |r| ==> IsSpace(x[i])
    ensures |r| > 0 ==> !IsSpace(r[0])
  {
    if |x| > 0 && IsSpace(x[0]) then StripLeft(x[1..]) else x
  }

  function StripRight(x: Str): (r: Str)
    ensures |r| <= |x| && r == x[..|r|]
    ensures forall i :: |r| <= i < |x| ==> IsSpace(x[i])
    ensures |r| > 0 ==> !IsSpace(r[|r| - 1])
  {
    if |x| > 0 && IsSpace(x[|x| - 1]) then StripRight(x[..|x| - 1]) else x
  }

  /** `x.strip()`: drops leading and trailing whitespace. */
  function Strip(x: Str): (r: Str)
    ensures |r| <= |x|
    ensures |r| > 0 ==> !IsSpace(r[0]) && !IsSpace(r[|r| - 1])
  {
    StripRight(StripLeft(x))
  }

  /** `strip()` returns a contiguous piece of its argument with no whitespace
      at either end, having removed only whitespace. */
  lemma StripIsTrimmedInfix(x: Str)
    ensures exists lo, hi ::
              && 0 <= lo <= hi <= |x| && Strip(x) == x[lo..hi]
              && (forall i :: 0 <= i < lo ==> IsSpace(x[i]))
              && (forall i :: hi <= i < |x| ==> IsSpace(x[i]))
    ensures |Strip(x)| > 0 ==> !IsSpace(Strip(x)[0]) && !IsSpace(Strip(x)[|Strip(x)| - 1])
  {
    var l := StripLeft(x);
    var lo := |x| - |l|;
    var hi := lo + |StripRight(l)|;
    assert Strip(x) == x[lo..hi];
    forall i | hi <= i < |x| ensures IsSpace(x[i]) {
      assert x[i] == l[i - lo];
    }
  }

  /** A line strips to the empty string exactly when it is all whitespace. */
  lemma StripEmptyIff(x: Str)
    ensures Strip(x) == [] <==> forall i :: 0 <= i < |x| ==> IsSpace(x[i])
  {
    var l := StripLeft(x);
    var lo := |x| - |l|;
    if Strip(x) != [] {
      assert !IsSpace(l[0]) && l[0] == x[lo];
    }
  }
}

=== FILE: transform_props.dfy ===
/** Properties of individual transforms: identities, involutions and inverses,
    the exact effect of the positional opcodes including where Python's slices
    clamp and its indices wrap, and a reference definition of `E`. */
module TransformFacts {
  import opened Results
  import opened Text
  import opened Opcodes
  import opened Transforms
  import opened Evaluator

  const NoopAction := Action(Noop, [])
  const LowerAction := Action(Lower, [])
  const UpperAction := Action(Upper, [])
  const ReverseAction := Action(Reverse, [])
  const RotateLeftAction := Action(RotateLeft, [])
  const RotateRightAction := Action(RotateRight, [])

  /** `:` returns every word unchanged. */
  lemma NoopIsIdentity(w: Str)
    ensures ApplyRule(w, [NoopAction]) == Ok(w)
  {
  }

  /** Lower-casing twice is lower-casing once, and likewise upper-casing. */
  lemma CaseMappingIdempotent(w: Str)
    ensures ApplyRule(w, [LowerAction, LowerAction]) == ApplyRule(w, [LowerAction])
    ensures ApplyRule(w, [UpperAction, UpperAction]) == ApplyRule(w, [UpperAction])
    ensures ApplyRule(w, [LowerAction]) == Ok(LowerAll(w))
  {
    assert LowerAll(LowerAll(w)) == LowerAll(w);
    assert UpperAll(UpperAll(w)) == UpperAll(w);
    assert [LowerAction, LowerAction][1..] == [LowerAction];
    assert [UpperAction, UpperAction][1..] == [UpperAction];
  }

  /** `r` is an involution. */
  lemma ReverseInvolution(w: Str)
    ensures ApplyRule(w, [ReverseAction, ReverseAction]) == Ok(w)
  {
    assert Reversed(Reversed(w)) == w;
    assert [ReverseAction, ReverseAction][1..] == [ReverseAction];
  }

  /** `{` then `}` restores any non-empty word. */
  lemma RotateLeftThenRight(w: Str)
    requires |w| > 0
    ensures ApplyRule(w, [RotateLeftAction, RotateRightAction]) == Ok(w)
  {
    var l := w[1..] + [w[0]];
    RotateLeftValue(w);
    RotateRightValue(l);
    assert l[|l| - 1] == w[0] && l[..|l| - 1] == w[1..];
    assert [w[0]] + w[1..] == w;
    ApplyPair(w, RotateLeftAction, RotateRightAction);
  }

  /** `{` on a non-empty word moves its first character to the end. */
  lemma RotateLeftValue(w: Str)
    requires |w| > 0
    ensures Transform(RotateLeft, [], w) == Ok(w[1..] + [w[0]])
  {
    assert Transform(RotateLeft, [], w) == Ok(Drop(w, 1) + [w[0]]);
    assert Drop(w, 1) == w[1..];
  }

  /** `}` on a non-empty word moves its last character to the front. */
  lemma RotateRightValue(w: Str)
    requires |w| > 0
    ensures Transform(RotateRight, [], w) == Ok([w[|w| - 1]] + w[..|w| - 1])
  {
    assert Get(w, -1) == Ok(w[|w| - 1]);
    assert Transform(RotateRight, [], w) == Ok([w[|w| - 1]] + Take(w, -1));
    assert Take(w, -1) == w[..|w| - 1];
  }

  /** `}` then `{` restores any non-empty word. */
  lemma RotateRightThenLeft(w: Str)
    requires |w| > 0
    ensures ApplyRule(w, [RotateRightAction, RotateLeftAction]) == Ok(w)
  {
    var r := [w[|w| - 1]] + w[..|w| - 1];
    RotateRightValue(w);
    RotateLeftValue(r);
    assert r[0] == w[|w| - 1] && r[1..] == w[..|w| - 1];
    assert w[..|w| - 1] + [w[|w| - 1]] == w;
    ApplyPair(w, RotateRightAction, RotateLeftAction);
  }

  /** On the empty word both rotations raise, because they index `x[0]` and
      `x[-1]`. */
  lemma RotationsFailOnEmpty()
    ensures Transform(RotateLeft, [], []) == Err(IndexOutOfRange)
    ensures Transform(RotateRight, [], []) == Err(IndexOutOfRange)
  {
  }

  /** `D N` removes exactly the character at N when N is inside the word, and
      leaves the word alone when N is past its end: `x[:N] + x[N+1:]` clamps. */
  lemma DeleteAtEffect(w: Str, n: int)
    requires 0 <= n
    ensures n < |w| ==> Transform(DeleteAt, [Num(n)], w) == Ok(w[..n] + w[n + 1..])
    ensures n < |w| ==> |Transform(DeleteAt, [Num(n)], w).value| == |w| - 1
    ensures n >= |w| ==> Transform(DeleteAt, [Num(n)], w) == Ok(w)
  {
    if n >= |w| {
      assert w + [] == w;
    }
  }

  /** `x N M` is the slice `x[N:N+M]`: never more than M characters, exactly
      the M characters from N when they exist, and clamped at the end of the
      word otherwise. */
  lemma ExtractEffect(w: Str, n: int, m: int)
    requires 0 <= n && 0 <= m
    ensures |Transform(Extract, [Num(n), Num(m)], w).value| <= m
    ensures n + m <= |w| ==> Transform(Extract, [Num(n), Num(m)], w) == Ok(w[n..n + m])
    ensures n <= |w| < n + m ==> Transform(Extract, [Num(n), Num(m)], w) == Ok(w[n..])
    ensures n >= |w| ==> Transform(Extract, [Num(n), Num(m)], w) == Ok([])
  {
    assert WellTyped(Extract, [Num(n), Num(m)]);
    assert Transform(Extract, [Num(n), Num(m)], w) == Ok(Slice(w, n, n + m));
    if n <= |w| < n + m {
      if n < |w| {
        assert Slice(w, n, n + m) == w[n..|w|] == w[n..];
      } else {
        assert Slice(w, n, n + m) == [] == w[n..];
      }
    }
  }

  /** `*` on two distinct positions inside the word exchanges those two
      characters, whichever order they are given in, and so keeps the length. */
  lemma SwapDistinct(w: Str, i: int, j: int)
    requires 0 <= i < |w| && 0 <= j < |w| && i != j
    ensures Transform(SwapAt, [Num(i), Num(j)], w) == Ok(w[i := w[j]][j := w[i]])
    ensures Transform(SwapAt, [Num(i), Num(j)], w) == Transform(SwapAt, [Num(j), Num(i)], w)
    ensures |Transform(SwapAt, [Num(i), Num(j)], w).value| == |w|
  {
    assert WellTyped(SwapAt, [Num(i), Num(j)]) && WellTyped(SwapAt, [Num(j), Num(i)]);
    assert w[i := w[j]][j := w[i]] == w[j := w[i]][i := w[j]];
  }

  /** `*` with both positions equal does not leave the word alone: the
      character is written twice and the word grows by one. */
  lemma SwapSamePosition(w: Str, i: int)
    requires 0 <= i < |w|
    ensures Transform(SwapAt, [Num(i), Num(i)], w) == Ok(w[..i + 1] + [w[i]] + w[i + 1..])
    ensures |Transform(SwapAt, [Num(i), Num(i)], w).value| == |w| + 1
  {
    assert WellTyped(SwapAt, [Num(i), Num(i)]);
    assert Transform(SwapAt, [Num(i), Num(i)], w) == StarSwap(w, i, i);
    assert StarSwap(w, i, i) == Ok(Take(w, i) + [w[i]] + Slice(w, i + 1, i) + [w[i]] + Drop(w, i + 1));
    assert Take(w, i) == w[..i] && Slice(w, i + 1, i) == [] && Drop(w, i + 1) == w[i + 1..];
    assert w[..i] + [w[i]] + [] + [w[i]] + w[i + 1..] == w[..i + 1] + [w[i]] + w[i + 1..];
  }

  /** The corrected swap exchanges the characters at any two positions inside
      the word, equal or not, so it keeps the length, ignores the order of its
      positions and undoes itself. */
  lemma SwapCharsExchanges(w: Str, i: int, j: int)
    requires 0 <= i < |w| && 0 <= j < |w|
    ensures SwapChars(w, i, j) == Ok(w[i := w[j]][j := w[i]])
    ensures SwapChars(w, i, j) == SwapChars(w, j, i)
    ensures |SwapChars(w, i, j).value| == |w|
    ensures SwapChars(SwapChars(w, i, j).value, i, j) == Ok(w)
  {
    if i == j {
      assert w[i := w[i]] == w;
    } else {
      var v := w[i := w[j]][j := w[i]];
      assert w[j := w[i]][i := w[j]] == v;
      assert v[i := v[j]][j := v[i]] == w;
    }
  }

  /** Off the diagonal the corrected swap is `star_func`; on it the corrected
      swap leaves the word alone where `star_func` duplicates the character. */
  lemma SwapCharsAgreesOffDiagonal(w: Str, i: int, j: int)
    ensures i != j ==> SwapChars(w, i, j) == Transform(SwapAt, [Num(i), Num(j)], w)
    ensures 0 <= i < |w| ==> SwapChars(w, i, i) == Ok(w)
    ensures 0 <= i < |w| ==> SwapChars(w, i, i) != Transform(SwapAt, [Num(i), Num(i)], w)
  {
    assert WellTyped(SwapAt, [Num(i), Num(j)]);
    if 0 <= i < |w| {
      SwapSamePosition(w, i);
    }
  }

  /** `,0` reads `x[-1]`: position 0 is overwritten by the last character. */
  lemma CopyPriorAtZeroWraps(w: Str)
    requires |w| > 0
    ensures Transform(CopyPrior, [Num(0)], w) == Ok([w[|w| - 1]] + w[1..])
  {
    assert WellTyped(CopyPrior, [Num(0)]);
    assert Get(w, -1) == Ok(w[|w| - 1]);
    assert Transform(CopyPrior, [Num(0)], w) == Ok(Take(w, 0) + [w[|w| - 1]] + Drop(w, 1));
    assert Take(w, 0) == [];
    assert Drop(w, 1) == w[1..];
    assert Take(w, 0) + [w[|w| - 1]] + Drop(w, 1) == [w[|w| - 1]] + w[1..];
  }

  /** `Y0` slices `x[-0:]`, the whole word, so it doubles the word rather than
      adding nothing. */
  lemma DuplicateBlockBackZero(w: Str)
    ensures Transform(DuplicateBlockBack, [Num(0)], w) == Ok(w + w)
  {
  }

  /** `-` on code point 0 and `+` on 0x10FFFF raise, since `chr` has no code
      point there; `R` never does. */
  lemma CodePointLimits(w: Str, n: int)
    requires 0 <= n < |w|
    ensures w[n] == 0 ==> Transform(Decrement, [Num(n)], w) == Err(NoSuchCodePoint)
    ensures w[n] == 0x10_FFFF ==> Transform(Increment, [Num(n)], w) == Err(NoSuchCodePoint)
    ensures Transform(ShiftRight, [Num(n)], w).Ok?
    ensures Transform(ShiftLeft, [Num(n)], w).Ok? <==> w[n] <= 0x8_7FFF
  {
  }

  // ----- E: capitalise every word ---------------------------------------------------

  /** Whether position `i` starts a word: the first position or one right
      after a space. */
  predicate WordStart(x: Str, i: nat)
    requires i < |x|
  {
    i == 0 || x[i - 1] == Space
  }

  /** Splitting on single spaces yields no empty piece: the word is non-empty,
      does not start or end with a space, and has no two spaces in a row. */
  predicate SpacedWords(x: Str)
  {
    && |x| > 0
    && x[0] != Space
    && x[|x| - 1] != Space
    && forall i :: 0 <= i < |x| - 1 ==> !(x[i] == Space && x[i + 1] == Space)
  }

  /** Reference definition of `E`: every character that starts a word is
      upper-cased, and everything else is kept. */
  function TitledReference(x: Str): (r: Str)
    ensures |r| == |x|
  {
    seq(|x|, i requires 0 <= i < |x| => if WordStart(x, i) then ToUpper(x[i]) else x[i])
  }

  lemma SpacedWordsCons(x: Str, k: nat)
    requires k < |x| && x[k] == Space
    requires forall i :: 0 <= i < k ==> x[i] != Space
    ensures SpacedWords(x) <==> k > 0 && SpacedWords(x[k + 1..])
  {
    var rest := x[k + 1..];
    if SpacedWords(x) {
      assert k > 0;
      assert |rest| > 0;
      assert rest[0] == x[k + 1];
      forall i | 0 <= i < |rest| - 1 ensures !(rest[i] == Space && rest[i + 1] == Space) {
        assert rest[i] == x[k + 1 + i] && rest[i + 1] == x[k + 2 + i];
      }
    }
    if k > 0 && SpacedWords(rest) {
      assert x[|x| - 1] == rest[|rest| - 1];
      forall i | 0 <= i < |x| - 1 ensures !(x[i] == Space && x[i + 1] == Space) {
        if i > k {
          assert x[i] == rest[i - k - 1] && x[i + 1] == rest[i - k];
        } else if i == k {
          assert x[i + 1] == rest[0];
        }
      }
    }
  }

  /** `E` succeeds exactly on words whose space-split has no empty piece, and
      then agrees with the reference definition. */
  lemma {:induction false} TitleWordsMatchesReference(x: Str)
    ensures TitleWords(x).Ok? <==> SpacedWords(x)
    ensures TitleWords(x).Ok? ==> TitleWords(x).value == TitledReference(x)
    decreases |x|
  {
    var k := FirstIndex(x, Space);
    if k == |x| {
      TitleOneWord(x);
    } else {
      var head := x[..k];
      var rest := x[k + 1..];
      assert Split(x, Space) == [head] + Split(rest, Space);
      TitleWordsMatchesReference(rest);
      SpacedWordsCons(x, k);
      var pieces := [head] + Split(rest, Space);
      assert pieces[1..] == Split(rest, Space);
      if k > 0 && SpacedWords(rest) {
        TitleWordsCons(x, k);
      } else if k == 0 {
        assert CapitalizeWord(head).Err?;
      } else {
        assert CapitalizeWord(head).Ok?;
        assert CapitalizeEach(pieces[1..]).Err?;
      }
    }
  }

  /** `E` on a word without spaces capitalises its first character, and fails
      on the empty word. */
  lemma TitleOneWord(x: Str)
    requires FirstIndex(x, Space) == |x|
    ensures TitleWords(x).Ok? <==> SpacedWords(x)
    ensures TitleWords(x).Ok? ==> TitleWords(x).value == TitledReference(x)
  {
    assert Split(x, Space) == [x];
    if |x| > 0 {
      TitleWordsSingle(x);
      assert SpacedWords(x) by {
        assert x[0] != Space && x[|x| - 1] != Space;
      }
      assert TitledReference(x) == [ToUpper(x[0])] + x[1..];
    } else {
      assert CapitalizeWord(x).Err?;
      assert CapitalizeEach([x]).Err?;
    }
  }

  /** How `E` evaluates on a non-empty word that splits into itself. */
  lemma TitleWordsSingle(x: Str)
    requires |x| > 0 && Split(x, Space) == [x]
    ensures TitleWords(x) == Ok([ToUpper(x[0])] + x[1..])
  {
    var c := [ToUpper(x[0])] + x[1..];
    assert CapitalizeWord(x) == Ok(c) by {
      assert Drop(x, 1) == x[1..];
    }
    var one := [x];
    assert one[0] == x && one[1..] == [];
    assert CapitalizeEach(one[1..]) == Ok([]);
    assert CapitalizeEach(one) == Ok([c] + []);
    assert [c] + [] == [c];
  }

  /** `E` on a first word followed by a space and a rest that `E` handles
      capitalises the first word and continues with the rest's result. */
  lemma TitleWordsCons(x: Str, k: nat)
    requires k == FirstIndex(x, Space) && 0 < k < |x|
    requires TitleWords(x[k + 1..]).Ok? && TitleWords(x[k + 1..]).value == TitledReference(x[k + 1..])
    ensures TitleWords(x) == Ok(TitledReference(x))
  {
    TitleWordsStep(x, k);
    TitledReferenceStep(x, k);
  }

  /** How `E` unfolds over the first space of its input. */
  lemma TitleWordsStep(x: Str, k: nat)
    requires k == FirstIndex(x, Space) && 0 < k < |x|
    requires TitleWords(x[k + 1..]).Ok?
    ensures TitleWords(x) == Ok([ToUpper(x[0])] + x[1..k] + [Space] + TitleWords(x[k + 1..]).value)
  {
    var head := x[..k];
    var rest := x[k + 1..];
    var capHead := [ToUpper(x[0])] + x[1..k];
    var pieces := [head] + Split(rest, Space);
    assert Split(x, Space) == pieces;
    assert pieces[1..] == Split(rest, Space);
    assert CapitalizeWord(head) == Ok(capHead) by {
      assert Drop(head, 1) == head[1..] == x[1..k];
    }
    var ws := CapitalizeEach(Split(rest, Space)).value;
    assert CapitalizeEach(pieces) == Ok([capHead] + ws);
    assert ([capHead] + ws)[1..] == ws;
    assert Join([capHead] + ws, Space) == capHead + [Space] + Join(ws, Space);
  }

  /** The reference definition unfolds the same way over the first space. */
  lemma TitledReferenceStep(x: Str, k: nat)
    requires 0 < k < |x| && x[k] == Space
    requires forall i :: 0 <= i < k ==> x[i] != Space
    ensures TitledReference(x) == [ToUpper(x[0])] + x[1..k] + [Space] + TitledReference(x[k + 1..])
  {
    var rest := x[k + 1..];
    var t := TitledReference(x);
    var tr := TitledReference(rest);
    var r := [ToUpper(x[0])] + x[1..k] + [Space] + tr;
    assert |r| == |x|;
    forall i | 0 <= i < |x| ensures r[i] == t[i] {
      if i == 0 {
      } else if i < k {
        assert r[i] == x[i];
      } else if i > k {
        var j := i - k - 1;
        assert r[i] == tr[j];
        assert rest[j] == x[i];
        if j > 0 {
          assert rest[j - 1] == x[i - 1];
        }
      }
    }
  }
}

=== FILE: transforms.dfy ===
/** The transform table: what each opcode does to a subject word, with Python's
    clamping slices, wrapping indices and raised errors made explicit. */
module Transforms {
  import opened Results
  import opened Text
  import opened Opcodes

  /** One argument of an action: a literal character, or a position or count
      decoded from the digit alphabet. */
  datatype Arg = Chr(c: CodePoint) | Num(n: int)

  /** An opcode with its argument list, the pair `(rule_type, args)`. */
  datatype Action = Action(op: Opcode, args: seq<Arg>)

  /** A parsed rule: its actions, applied left to right. */
  type Rule = seq<Action>

  /** What a transform call can raise. */
  datatype EvalError =
    | BadArguments    // TypeError: too few, too many, or wrongly typed arguments
    | IndexOutOfRange // IndexError from a direct index `x[i]`
    | NoSuchCodePoint // ValueError from `chr` outside 0..0x10FFFF

  /** The argument list fits the transform's parameters: one per arity slot, a
      number exactly where the opcode expects a position or count. */
  predicate WellTyped(op: Opcode, args: seq<Arg>)
  {
    && |args| == Arity(op)
    && forall k :: 0 <= k < |args| ==> (args[k].Num? <==> IsNumSlot(op, k))
  }

  /** The opcodes whose transform indexes the subject directly (`x[0]`,
      `x[-1]`, `x[y]`, ...) and so can raise `IndexError`; every other
      transform uses only slices, which clamp. */
  predicate Indexes(op: Opcode)
  {
    op in {InvertCapitalize, TitleCase, ToggleAt, RotateLeft, RotateRight,
           DuplicateFirst, DuplicateLast, ShiftLeft, ShiftRight, Increment,
           Decrement, CopyNext, CopyPrior, SwapFront, SwapBack, SwapAt}
  }

  /** `x[i]` as a transform step. */
  function Get(x: Str, i: int): (r: Result<CodePoint, EvalError>)
    ensures r.Ok? <==> -|x| <= i < |x|
    ensures r.Ok? ==> Some(r.value) == At(x, i)
    ensures r.Err? ==> r.error == IndexOutOfRange
  {
    match At(x, i)
    case Some(c) => Ok(c)
    case None => Err(IndexOutOfRange)
  }

  /** Python's `chr(n)`. */
  function FromOrdinal(n: int): (r: Result<CodePoint, EvalError>)
    ensures r.Ok? <==> 0 <= n <= 0x10_FFFF
    ensures r.Ok? ==> r.value == n
    ensures r.Err? ==> r.error == NoSuchCodePoint
  {
    if 0 <= n <= 0x10_FFFF then Ok(n) else Err(NoSuchCodePoint)
  }

  /** `i[0].upper() + i[1:]`: fails on an empty word. */
  function CapitalizeWord(w: Str): Result<Str, EvalError>
  {
    var c :- Get(w, 0);
    Ok([ToUpper(c)] + Drop(w, 1))
  }

  /** The list comprehension `[i[0].upper() + i[1:] for i in pieces]`. */
  function CapitalizeEach(pieces: seq<Str>): (r: Result<seq<Str>, EvalError>)
    ensures r.Ok? <==> forall k :: 0 <= k < |pieces| ==> pieces[k] != []
    ensures r.Ok? ==> |r.value| == |pieces|
    ensures r.Err? ==> r.error == IndexOutOfRange
  {
    if |pieces| == 0 then Ok([])
    else
      var w :- CapitalizeWord(pieces[0]);
      var ws :- CapitalizeEach(pieces[1..]);
      Ok([w] + ws)
  }

  /** Opcode `E`: `" ".join([i[0].upper()+i[1:] for i in x.split(" ")])`.
      Any empty piece -- an empty word, a leading or trailing space, two
      spaces in a row -- makes `i[0]` raise. */
  function TitleWords(x: Str): (r: Result<Str, EvalError>)
    ensures r.Err? ==> r.error == IndexOutOfRange
  {
    var ws :- CapitalizeEach(Split(x, Space));
    Ok(Join(ws, Space))
  }

  /** `star_func`, opcode `*`: the slices are taken around whichever of the two
      positions is smaller; when they are equal the character is duplicated. */
  function StarSwap(x: Str, y: int, z: int): (r: Result<Str, EvalError>)
    ensures r.Ok? <==> -|x| <= y < |x| && -|x| <= z < |x|
    ensures r.Err? ==> r.error == IndexOutOfRange
    ensures 0 <= y < |x| && 0 <= z < |x| && y != z ==> r == Ok(x[y := x[z]][z := x[y]])
  {
    ExchangeSlices(x, y, z);
    ExchangeSlices(x, z, y);
    if z > y then
      var cz :- Get(x, z);
      var cy :- Get(x, y);
      Ok(Take(x, y) + [cz] + Slice(x, y + 1, z) + [cy] + Drop(x, z + 1))
    else
      var cy :- Get(x, y);
      var cz :- Get(x, z);
      Ok(Take(x, z) + [cy] + Slice(x, z + 1, y) + [cz] + Drop(x, y + 1))
  }

  /** `x[:lo] + x[hi] + x[lo+1:hi] + x[lo] + x[hi+1:]` is the word with the
      characters at `lo` and `hi` exchanged. */
  lemma SwapSlices(w: Str, lo: nat, hi: nat)
    requires lo < hi < |w|
    ensures w[..lo] + [w[hi]] + w[lo + 1..hi] + [w[lo]] + w[hi + 1..] == w[lo := w[hi]][hi := w[lo]]
  {
    var s := w[..lo] + [w[hi]] + w[lo + 1..hi] + [w[lo]] + w[hi + 1..];
    var t := w[lo := w[hi]][hi := w[lo]];
    assert |s| == |t|;
    forall i | 0 <= i < |s| ensures s[i] == t[i] {
      if i < lo {
      } else if i == lo {
      } else if i < hi {
        assert s[i] == w[lo + 1..hi][i - lo - 1];
      } else if i == hi {
      } else {
        assert s[i] == w[hi + 1..][i - hi - 1];
      }
    }
  }

  /** `SwapSlices` phrased over Python's slices, for any two positions. */
  lemma ExchangeSlices(x: Str, lo: int, hi: int)
    ensures 0 <= lo < hi < |x| ==>
              Take(x, lo) + [x[hi]] + Slice(x, lo + 1, hi) + [x[lo]] + Drop(x, hi + 1) == x[lo := x[hi]][hi := x[lo]]
    ensures 0 <= lo < hi < |x| ==> x[lo := x[hi]][hi := x[lo]] == x[hi := x[lo]][lo := x[hi]]
  {
    if 0 <= lo < hi < |x| {
      SwapSlices(x, lo, hi);
    }
  }

  /** `*` as the rule language defines it: exchanging a position with itself
      leaves the word alone, and otherwise this is `star_func`. */
  function SwapChars(x: Str, y: int, z: int): Result<Str, EvalError>
  {
    if y == z then
      var _ :- Get(x, y);
      Ok(x)
    else StarSwap(x, y, z)
  }

  /** `x[:y] + chr(f(ord(x[y]))) + x[y+1:]`, the shape shared by `L R + -`. */
  function MapCodeAt(x: Str, y: int, f: int -> int): Result<Str, EvalError>
  {
    var c :- Get(x, y);
    var d :- FromOrdinal(f(c));
    Ok(Take(x, y) + [d] + Drop(x, y + 1))
  }

  /** `hashcat_rule[op](x, *args)`. */
  function Transform(op: Opcode, args: seq<Arg>, x: Str): (r: Result<Str, EvalError>)
    ensures r.Ok? ==> WellTyped(op, args)
    ensures !WellTyped(op, args) ==> r == Err(BadArguments)
    ensures WellTyped(op, args) && !Indexes(op) ==> r.Ok?
    ensures WellTyped(op, args) && r.Err? ==>
              r.error == IndexOutOfRange || (r.error == NoSuchCodePoint && op in {ShiftLeft, Increment, Decrement})
  {
    if !WellTyped(op, args) then Err(BadArguments)
    else match op
      case Noop => Ok(x)
      case Lower => Ok(LowerAll(x))
      case Upper => Ok(UpperAll(x))
      case Capitalize => Ok(if |x| == 0 then [] else [ToUpper(x[0])] + LowerAll(x[1..]))
      case InvertCapitalize =>
        var c :- Get(x, 0);
        Ok([ToLower(c)] + UpperAll(Drop(x, 1)))
      case ToggleCase => Ok(SwapAll(x))
      case TitleCase => TitleWords(x)
      case ToggleAt =>
        var y := args[0].n;
        var c :- Get(x, y);
        Ok(Take(x, y) + [SwapCase(c)] + Drop(x, y + 1))
      case Reverse => Ok(Reversed(x))
      case RotateLeft =>
        var c :- Get(x, 0);
        Ok(Drop(x, 1) + [c])
      case RotateRight =>
        var c :- Get(x, -1);
        Ok([c] + Take(x, -1))
      case Duplicate => Ok(x + x)
      case Reflect => Ok(x + Reversed(x))
      case DuplicateEach => Ok(DoubleEach(x))
      case DuplicateWord => Ok(Repeat(x, args[0].n))
      case DuplicateFirst =>
        var c :- Get(x, 0);
        Ok(Repeat([c], args[0].n) + x)
      case DuplicateLast =>
        var c :- Get(x, -1);
        Ok(x + Repeat([c], args[0].n))
      case DuplicateBlockFront => Ok(Take(x, args[0].n) + x)
      case DuplicateBlockBack => Ok(x + Drop(x, -args[0].n))
      case DeleteFirst => Ok(Drop(x, 1))
      case DeleteLast => Ok(Take(x, -1))
      case DeleteAt => Ok(Take(x, args[0].n) + Drop(x, args[0].n + 1))
      case Truncate => Ok(Take(x, args[0].n))
      case Omit => Ok(Take(x, args[0].n) + Drop(x, args[0].n + args[1].n))
      case Extract => Ok(Slice(x, args[0].n, args[0].n + args[1].n))
      case Purge => Ok(RemoveAll(x, args[0].c))
      case Append => Ok(x + [args[0].c])
      case Prepend => Ok([args[0].c] + x)
      case InsertAt => Ok(Take(x, args[0].n) + [args[1].c] + Drop(x, args[0].n))
      case OverwriteAt => Ok(Take(x, args[0].n) + [args[1].c] + Drop(x, args[0].n + 1))
      case Substitute => Ok(ReplaceAll(x, args[0].c, args[1].c))
      case ShiftLeft => MapCodeAt(x, args[0].n, c => c * 2)
      case ShiftRight => MapCodeAt(x, args[0].n, c => c / 2)
      case Increment => MapCodeAt(x, args[0].n, c => c + 1)
      case Decrement => MapCodeAt(x, args[0].n, c => c - 1)
      case CopyNext =>
        var y := args[0].n;
        var c :- Get(x, y + 1);
        Ok(Take(x, y) + [c] + Drop(x, y + 1))
      case CopyPrior =>
        var y := args[0].n;
        var c :- Get(x, y - 1);
        Ok(Take(x, y) + [c] + Drop(x, y + 1))
      case SwapFront =>
        // once `x[1]` exists, `x[0]` does too
        var b :- Get(x, 1);
        Ok([b, x[0]] + Drop(x, 2))
      case SwapBack =>
        var last :- Get(x, -1);
        var prev :- Get(x, -2);
        Ok(Take(x, -2) + [last, prev])
      case SwapAt => StarSwap(x, args[0].n, args[1].n)
  }
}
